=== FILE: README.md ===
# IndusBackend PDF generators: a Dafny model

This project models the pure logic inside the two PDF generators of the
IndusBackend service. These generators produce GST tax invoices and quotations.

- **Invoice tax aggregation** (`calculateTotals`):
  - It checks the payload's shape.
  - It appends a default "Installation & Commissioning Charges" line at most once.
  - It computes each line's taxable amount after its discount percentage.
  - It groups lines by HSN/SAC code; a code keeps the first rate seen for it.
  - It splits each group's tax into equal CGST and SGST halves.
  - It produces the subtotal, the tax totals and the grand total.
  - Amounts are exact `real`s.
- **Amount in words** (`toWords` / `inWords`):
  - Indian numbering: crore, lakh, thousand, hundred, and a 0–99 tail.
  - The sentence frame is "Rupees … [and … Paise]", built the way the code builds it.
  - Whitespace runs are then collapsed, the text is trimmed, and "only" is appended with no space.
  - The words are kept as tokens. A decoder `Value` reads them back, and the text is derived from the tokens.
- **Page cursor** of both generators:
  - A state holds the cursor `y` and the pages opened so far, each with its title.
  - A single rule opens a page when a block would overflow, the same rule the quotation's `ensureSpace` uses.
  - That rule is applied row by row (`Cursor.Flow`).
  - On top of it sit the invoice's fixed section heights, item-row breaks, footer test and tax-analysis test.
  - On top of it also sit the quotation's item, term and footer requests.

Measured text heights (`heightOfString`) and the cursor movement that pdfkit
causes while drawing text are parameters of the model (`Metrics`). Nothing is
drawn.

Modules:

| module | file | contents |
|---|---|---|
| `Results` | results.dfy | `Option`, `Result` |
| `Sums` | sums.dfy | exact sums over sequences, summed left to right |
| `InvoiceTotals` | invoice_totals.dfy | `calculateTotals` |
| `Whitespace` | whitespace.dfy | `replace(/\s+/g, " ")`, `trim()`, space-separated word layouts |
| `AmountWords` | amount_words.dfy | `inWords`, `toWords` |
| `Cursor` | cursor.dfy | page geometry, the break rule, the break rule row by row |
| `InvoiceLayout` | invoice_layout.dfy | the cursor arithmetic of `generateInvoicePDF` and its section generators |
| `QuotationLayout` | quotation_layout.dfy | the guard and cursor arithmetic of `generateQuotationPDF` |

## Model

| member | source | states |
|---|---|---|
| `InvoiceTotals.CalculateTotals` | invoiceGenerator.js:64-176 | Fails exactly when `data`, `data.invoice` or the items array is missing. Otherwise: the items are the input items plus the installation line when the installation rule adds it; the installation is kept; and every aggregate property holds (line amounts, subtotal, one group per code, group sums, first-seen rates, equal tax halves, grand total). |
| `InvoiceTotals.WithInstallation` | invoiceGenerator.js:71-93 | The list is either unchanged or the input plus one installation line. It changes exactly when an installation with a positive amount is given and no line already carries the installation name. Afterwards a line carries the installation name exactly when one already did or a positive installation amount was given. |
| `InvoiceTotals.InstallationItem` | invoiceGenerator.js:71-84 | The default line carries the installation name, quantity 1, the installation amount as unit price and a discount of 0. A given non-empty HSN code is kept; a missing or empty one becomes "998739". A given non-zero rate is kept; a missing or zero rate becomes 18. So the code is never empty, the rate is never 0, and the line's taxable amount is exactly the installation amount. |
| `InvoiceTotals.InstallationAddedAtMostOnce` | invoiceGenerator.js:71-93 | Applying the installation rule twice gives the same list as applying it once. At most one line is added. |
| `InvoiceTotals.RecalculationIsStable` | invoiceGenerator.js:71-93 | Running `calculateTotals` on the payload it leaves behind gives the same result again, so the installation line is not appended twice. |
| `InvoiceTotals.GroupItems` | invoiceGenerator.js:99-121 | Grouping gives distinct codes, exactly the codes of the lines, and each group's taxable value equal to the sum over the lines with that code. Each group's rate is that of the first line with its code. The groups' taxable values sum to the lines' amounts. |
| `InvoiceTotals.TotalsSplit` | invoiceGenerator.js:129-153 | Summed over the groups, CGST and SGST are each half of the summed tax. The groups' taxable values carry over unchanged. |
| `InvoiceTotals.ItemAmount` | invoiceGenerator.js:100-104 | With no discount a line's amount is `qty*unitPrice`; with a 100% discount it is 0. |
| `InvoiceTotals.ItemAmountWithin` | invoiceGenerator.js:100-104 | For non-negative quantity and price and a discount between 0 and 100, the amount lies between 0 and `qty*unitPrice`. |
| `InvoiceTotals.Aggregate` | invoiceGenerator.js:95-153 | The record keeps the lines and the installation. Each line amount is `qty*unitPrice` less the discount percentage of that product, with a missing discount counted as 0. The subtotal is their sum, the group taxable values add up to the subtotal, the document tax is the sum of group taxes in two equal halves, and grandTotal = subtotal + totalTax. |
| `InvoiceTotals.FindHsn` | invoiceGenerator.js:110 | Returns the position of the first group with the code, or the number of groups when no group has it. |
| `Whitespace.TrimCollapseSpaced` | invoiceGenerator.js:1096 | Take whitespace-free words, each followed by a space, with a non-empty first word. Collapsing whitespace runs and trimming leaves exactly the non-empty words joined by single spaces. |
| `Whitespace.Collapse` | invoiceGenerator.js:1096 | `replace(/\s+/g, " ")` never lengthens the text, leaves it empty exactly when it was empty, and starts with whitespace exactly when the input did. |
| `Whitespace.CollapseSpaces` | invoiceGenerator.js:1096 | After `replace(/\s+/g, " ")` every whitespace character is a plain space and no two whitespace characters are adjacent. |
| `Whitespace.Trim` | invoiceGenerator.js:1096 | `trim()` returns the slice of the input that starts after its leading whitespace, with only whitespace after it. The result is empty exactly when the input is all whitespace, and otherwise starts and ends with non-whitespace. Input that already has no whitespace at either end is returned unchanged. |
| `AmountWords.InWordsRoundTrip` | invoiceGenerator.js:1049-1084 | Reading back the words `inWords(n)` produces (crore, lakh, thousand and hundred groups, each prefixed by the words of its quotient, then the tail) gives `n` for every natural `n`. |
| `AmountWords.InWords` | invoiceGenerator.js:1049-1084 | Every units word of `inWords(n)` is one of the units table's 20 entries and every tens word is one of Twenty to Ninety. The result is empty exactly when `n` is 0. |
| `AmountWords.AndBeforeTail` | invoiceGenerator.js:1076-1081 | The words of `n` are the words of its hundreds part followed by the tail of `n % 100`. The tail is preceded by "and" exactly when `n >= 100`, that is, when earlier words exist. |
| `AmountWords.TailFacts` | invoiceGenerator.js:1076-1081 | The 0–99 tail contains no scale word and reads back to its value. |
| `AmountWords.TailWords` | invoiceGenerator.js:1076-1081 | For 1–99 the tail's visible words are "and" when earlier words exist, then the units-table word for 1–19, or for 20–99 the tens-table word followed by the units word unless the units digit is 0. |
| `AmountWords.InWordsSmall` | invoiceGenerator.js:1049-1084 | Below 100 `inWords` is the tail alone, with no "and". |
| `AmountWords.SentenceRoundTrip` | invoiceGenerator.js:1090-1094 | The "Rupees … [and … Paise]" sentence reads back to the amount it was made from. |
| `AmountWords.SentenceFrame` | invoiceGenerator.js:1090-1094 | The sentence opens with "Rupees". "Zero" is used exactly when the rupees are 0. The paise clause appears exactly when the paise are positive. |
| `AmountWords.ToWords` | invoiceGenerator.js:1086-1097 | A missing amount gives the empty string. Otherwise the text of `toWords` equals `Spoken`: the non-empty words of the sentence joined by single spaces, immediately followed by "only". |
| `AmountWords.ToWordsMissing` | invoiceGenerator.js:983 | `null`/`undefined` gives the empty string. |
| `AmountWords.SpokenHundred` | invoiceGenerator.js:1086-1096 | 100 gives "Rupees One Hundredonly". |
| `AmountWords.SpokenZero` | invoiceGenerator.js:1090 | 0 gives "Rupees Zeroonly". |
| `AmountWords.SpokenWithPaise` | invoiceGenerator.js:1092-1094 | 20.05 gives "Rupees Twenty and Five Paiseonly". The empty units word after "Twenty" leaves no trace. |
| `Cursor.BreakBefore` | invoiceGenerator.js:41-47 | One page is added exactly when `y + need` passes the bottom margin. The cursor then resumes at the given position and the new page carries the given title. Otherwise nothing changes. Earlier pages are kept. A block no taller than the space below the resume position then fits. |
| `Cursor.Flow` | invoiceGenerator.js:417-488 | Laying out rows records one request position and one drawing position per row; `Cursor.FlowSteps` states what they are. |
| `Cursor.FlowSteps` | invoiceGenerator.js:417-487 | Row by row: the first request is made at the start cursor. A row is drawn at the resume position exactly when it overflows at its request, and otherwise where the cursor stood. The next request is made after the row's text movement and its own height. |
| `Cursor.FlowPages` | invoiceGenerator.js:439-447 | Laying out rows keeps earlier pages and adds exactly one page, with the given title, for each row that overflowed at its request (`Cursor.Overflowing` counts them). So at most one page per row is added, and pages are added exactly when some row overflowed. |
| `Cursor.FlowFits` | invoiceGenerator.js:439-447 | Every row no taller than the space below the resume position is drawn wholly above the bottom margin. |
| `Cursor.FlowStacks` | invoiceGenerator.js:417-487 | With no break, rows stack one below the other on the same page, and the cursor moves by their total movement. |
| `Cursor.FlowAppend` | invoiceGenerator.js:417-488 | Laying out two row lists one after the other is laying out their concatenation. |
| `InvoiceLayout.OpeningSections` | invoiceGenerator.js:26-32 | On the opening page the company and invoice box starts at the top margin and is 90 points tall. The buyer box below it is the address height plus 45 points with a buyer GSTIN, or plus 30 without one. The first item request is made 20 points below the table's top, after the table header, and that item is drawn there when it fits. |
| `InvoiceLayout.InstallationRowLast` | invoiceGenerator.js:71-93 | Appending the installation line leaves every original item row where it was, both its request and its drawing position. The installation row is requested where the last original row left the cursor. |
| `InvoiceLayout.ItemsTable` | invoiceGenerator.js:404-491 | The table lays out exactly one row per item. |
| `InvoiceLayout.LayoutInvoice` | invoiceGenerator.js:19-62 | One row per item is laid out. The first page is the opening page. |
| `InvoiceLayout.GenerateInvoicePdf` | invoiceGenerator.js:19-62 | A malformed payload fails before any layout. Otherwise there is one row per line of the computed invoice: the input items, plus the installation line exactly when the installation rule adds it. |
| `InvoiceLayout.GenerateInvoicePdfCorrected` | invoiceGenerator.js:19-62 | The same failure condition and rows as `generateInvoicePDF`, with the tax-analysis estimate replaced by the block's drawn extent. Whenever the block, amount in words included, fits on a fresh page, it ends above the bottom margin. |
| `InvoiceLayout.ItemRowsAdvance` | invoiceGenerator.js:417-487 | The first row request is made 20 points below the table's top. A row whose height (name + 8) overflows is drawn at top margin + 75, and otherwise where the cursor stood. The cursor then moves by exactly that row height. |
| `InvoiceLayout.ItemRowsFit` | invoiceGenerator.js:436-447 | An item row no taller than a continuation page can hold below its headers is drawn wholly above the bottom margin. |
| `InvoiceLayout.FooterPlacement` | invoiceGenerator.js:36-49 | A continuation page is added before the footer exactly when `y + 180` passes the bottom margin, and the footer then starts at the top margin + 55. The footer takes exactly 80 + 90 = 170 points and always ends above the bottom margin. |
| `InvoiceLayout.TaxPlacement` | invoiceGenerator.js:51-59 | A page titled "(Tax Analysis)" is added after the footer exactly when the estimate passes the bottom margin, and no other page is added for the block. The block is drawn 15 points below the cursor, which after a break is the top margin + 55. |
| `InvoiceLayout.TaxBreakAsWritten` | invoiceGenerator.js:38-53 | As the code estimates, the tax-analysis page is added exactly when `y + 40 + (groups + 2) * 20` passes the bottom margin. |
| `InvoiceLayout.InvoicePages` | invoiceGenerator.js:19-62 | An invoice has exactly 1 + (item rows that overflowed at their request) + (1 when the footer's 180-point request overflowed) + (1 when the tax estimate overflowed after the footer) pages, so between 1 and items + 3. The first is the opening page and the middle ones are continuations. The last is titled "(Tax Analysis)" exactly when the tax block did not fit after the footer, and is a continuation otherwise. |
| `InvoiceLayout.ItemColumnWidths` | invoiceGenerator.js:345-347 | The item table's column widths sum to 535 points, which is at most the A4 width less two 30-point margins (535.28). |
| `InvoiceLayout.TaxColumnWidths` | invoiceGenerator.js:698 | The tax-analysis table's column widths also sum to 535 points, within the same 535.28. |
| `InvoiceLayout.TaxOverflowAsWritten` | invoiceGenerator.js:38-59 | With the code's estimate, a cursor within 15 points of the estimate's limit gets no new page, and the tax table's total row crosses the bottom margin. |
| `InvoiceLayout.TaxOverflowExample` | invoiceGenerator.js:19-59 | A concrete payload through the whole generator: one line ("Panel", HSN 8537, 1 × 100 at 18%), so one tax group, a name measuring 10 points, and a buyer without a GSTIN whose address measures 353.89 points. The invoice is generated. Its footer ends at 711.89, 100 points above the bottom margin. No page is added after the opening page, and the tax table's total row ends 15 points below the margin. |
| `InvoiceLayout.TaxFitsCorrected` | invoiceGenerator.js:665-980 | Estimate the drawn extent instead (gap 15, title 25, header 35, 20 per group, total row 20, 10 and 12 to the words, and the words' height). Then the whole block lies above the bottom margin whenever it fits on a fresh tax-analysis page. |
| `QuotationLayout.GenerateQuotationPdf` | quotationGenerator.js:10-14 | The request is rejected exactly when `data` is missing or its `items` is not an array. Otherwise one row is laid out per item. |
| `QuotationLayout.EnsureSpace` | quotationGenerator.js:20-29 | `ensureSpace(h)` adds exactly one untitled page and resets the cursor to the top margin exactly when `y + h` passes `page.height - margins.bottom`. Otherwise it changes nothing. A request no taller than the space between the margins then fits. |
| `QuotationLayout.LayoutQuotation` | quotationGenerator.js:77-198 | One row is laid out per item. One row is laid out per term when the terms are an array, and none otherwise. |
| `QuotationLayout.ItemRequests` | quotationGenerator.js:92-123 | The first item request is made 25 points below the table's heading row. An item that overflows is drawn at the top margin of a new page, and otherwise where the cursor stood. The next request follows after the row's text movement and the name's height. |
| `QuotationLayout.TermRequests` | quotationGenerator.js:160-177 | The terms start where the totals block ended. Each overflowing term is drawn at the top margin. The cursor moves by the term's text and its reduced height. Terms that are not an array make no request at all. |
| `QuotationLayout.SummaryAdvance` | quotationGenerator.js:125-165 | The totals block moves the cursor by its fixed steps (52) plus its text, on the page the last item left it on. The items end below the last item's row. |
| `QuotationLayout.RequestsFit` | quotationGenerator.js:20-28 | Every item or term no taller than the space between the margins is drawn wholly above the bottom margin. |
| `QuotationLayout.FooterPinned` | quotationGenerator.js:180-202 | The footer asks for thank-you height + contact height + 10, and a page is added exactly when that overflows. The footer is then pinned at bottom − thank-you − contact − 5 whatever the cursor was, and the contact line sits at bottom − 12. When the footer fits on a page, it starts at least 5 points below where its request left the cursor. |
| `QuotationLayout.QuotationPages` | quotationGenerator.js:20-29 | A quotation has exactly 1 + (items whose request overflowed) + (terms whose request overflowed) + (1 when the footer's request overflowed) pages, so at most one per item, one per term and one for the footer. The first is the opening page and all others are untitled. |

## Left out

- Drawing: pdfkit rectangles, lines, fonts, alignment, the logo, and `image-size`.
  - Text heights and the cursor movement pdfkit causes while drawing text are inputs (`Metrics`).
  - The quotation's header block (logo, company lines, recipient) is summed into `tableTop`.
  - The seven text lines of its totals block are summed into `summaryText`.
- pdfkit's own automatic page break inside a single `text()` call: the text engine is not part of this model.
- Floating point, `toFixed(2)`, and the float-to-rupees/paise split: amounts are exact reals, and `toWords` takes the `(rupees, paise)` pair.
  - For the same reason, `grandTotalInWords` and `taxAmountInWords` are not fields of `InvoiceTotals.Calculated`. `AmountWords.ToWords` is the conversion.
- Negative amounts in `toWords`: the model takes natural rupees.
- The order of `Object.values(hsnGroups)`: JavaScript puts integer-like keys first in ascending order, so the groups are a sequence with no ordering claim. Every total is order independent.
- HSN codes that name inherited object properties (`constructor`, `__proto__`): the JavaScript object lookup behaves differently for those keys.
- Dates (`toLocaleDateString`), `console.log`, write streams, and the promise's `finish`/`error` events (I/O and asynchronous completion).
- `InvoiceLayout.GenerateInvoicePdf`, `InvoiceLayout.GenerateInvoicePdfCorrected`: the payload is taken to be fully typed. Their failure condition covers only the guard of `calculateTotals`. The code also throws a TypeError on a missing `company` (invoiceGenerator.js:213), `customer` (:273) or `company.bankDetails` (:640), and on a line without `unitPrice` (:427). Those failures are not modelled, because the record types always hold those fields.
- `QuotationLayout.GenerateQuotationPdf`: the items are taken to be fully typed. An item without `qty`, `unitPrice` or `amount` makes `toFixed` throw (quotationGenerator.js:107-112); that failure is not modelled, for the same reason. The promise is also rejected when reading the logo file throws (:32) and when the output stream reports an `error` (:211). Both are file-system I/O, so they are not modelled either, and the "rejected exactly when" covers only the `data`/`items` guard.
- `InvoiceLayout.ItemRowsAdvance`, `InvoiceLayout.ItemsTable`, `InvoiceLayout.ItemRowsFit`: a row's height is a function of the item name alone (`Metrics.nameHeight`). The code measures names in 9-point Helvetica (invoiceGenerator.js:415). After a continuation page, the table header leaves the font at Helvetica-Bold (:371), and nothing resets it before the next measurement (:437). So later rows may be measured in another font. That font switch is not modelled.
- The other files of the repository (pdfgenerator.js, routes/adminRouter.js, supabaseClient.js, middleware.js, mailer.js, firebase.js, downloadInvoice.js, getInvoiceDetails.js, index.js): these are plumbing and framework calls outside this model.

## Findings

| source | as written | input that shows it | evidently intended | confidence | as-written member | corrected member |
|---|---|---|---|---|---|---|
| invoiceGenerator.js:38-59 | The tax-analysis block is estimated at `40 + (groups + 2) * 20` = 80 + 20·groups points. It is drawn 15 points below the cursor: title 25, header 35, 20 per group, total row 20. So its total row ends 95 + 20·groups below the cursor, with the words label and text further down. | One line ("Panel", HSN 8537, 1 × 100 at 18%, a name 10 points tall) for a buyer without a GSTIN whose address is 353.89 points tall. The footer then ends at y = 711.89 on the A4 page with margin 30, whose bottom margin line is 811.89. 711.89 + 100 does not pass 811.89, so no page is added. The total row ends at 826.89 (`InvoiceLayout.TaxOverflowExample`). | Estimate the block's drawn extent, so that the whole block is on the page whenever it fits on a page at all. | not executed; high (arithmetic on the constants in the code) | `InvoiceLayout.TaxOverflowAsWritten` | `InvoiceLayout.GenerateInvoicePdfCorrected` |

In the layout, the choice of tax estimate is a parameter, `InvoiceLayout.TaxEstimate`:

- `AsWritten` is the code's estimate.
- `Corrected(wordsHeight)` is the corrected one.

`InvoiceLayout.LayoutInvoice` and every layout lemma take either estimate.

- `InvoiceLayout.GenerateInvoicePdf` reproduces the code and so uses `AsWritten`.
- `InvoiceLayout.GenerateInvoicePdfCorrected` is the same generator with `Corrected`.
- `InvoiceLayout.TaxFitsCorrected` states the corrected property for the layout alone.

=== FILE: amount_words.dfy ===
/** The amount-in-words conversion of the invoice generator (`toWords` with
    its inner `inWords`): Indian numbering in crores, lakhs, thousands and
    hundreds with a 0-99 tail, framed as "Rupees ... [and ... Paise] only".
    The words are kept as tokens; the text is their spellings laid out the
    way the source concatenates them. */
module AmountWords {
  import opened Results
  import opened Whitespace

  /** The four scale words, largest first. */
  datatype Scale = Crore | Lakh | Thousand | Hundred

  /** One word piece. `Unit(0)` is the empty first entry of the units table,
      which the source emits after a round tens word. */
  datatype Token =
    | Unit(u: nat)
    | Tens(t: nat)
    | ScaleWord(s: Scale)
    | And
    | Rupees
    | Zero
    | Paise

  const UnitWords: seq<string> := [
    "", "One", "Two", "Three", "Four", "Five", "Six", "Seven", "Eight", "Nine",
    "Ten", "Eleven", "Twelve", "Thirteen", "Fourteen", "Fifteen", "Sixteen",
    "Seventeen", "Eighteen", "Nineteen"]

  const TensWords: seq<string> := [
    "", "", "Twenty", "Thirty", "Forty", "Fifty", "Sixty", "Seventy", "Eighty", "Ninety"]

  /** The scale at level `i` (0 = crore ... 3 = hundred). */
  function ScaleAt(i: nat): Scale
    requires i < 4
  {
    [Crore, Lakh, Thousand, Hundred][i]
  }

  /** The value of one unit of the scale at level `i`. */
  function ScaleValue(i: nat): (u: nat)
    requires i < 4
    ensures u >= 100
  {
    if i == 0 then 10000000 else if i == 1 then 100000 else if i == 2 then 1000 else 100
  }

  /** A token the converter can produce. */
  predicate WellFormed(t: Token) {
    match t
    case Unit(u) => u < 20
    case Tens(t) => 2 <= t < 10
    case _ => true
  }

  predicate AllWellFormed(ts: seq<Token>) {
    forall i :: 0 <= i < |ts| ==> WellFormed(ts[i])
  }

  function Spell(t: Token): string
    requires WellFormed(t)
  {
    match t
    case Unit(u) => UnitWords[u]
    case Tens(t) => TensWords[t]
    case ScaleWord(s) =>
      (match s case Crore => "Crore" case Lakh => "Lakh" case Thousand => "Thousand" case Hundred => "Hundred")
    case And => "and"
    case Rupees => "Rupees"
    case Zero => "Zero"
    case Paise => "Paise"
  }

  function Spells(ts: seq<Token>): (ws: seq<string>)
    requires AllWellFormed(ts)
    ensures |ws| == |ts|
    ensures forall i :: 0 <= i < |ts| ==> ws[i] == Spell(ts[i])
  {
    if |ts| == 0 then [] else [Spell(ts[0])] + Spells(ts[1..])
  }

  // ---------------------------------------------------------------------
  // inWords

  /** The tail for `n` below 100: "and" when earlier words exist, then a
      units word, or a tens word followed by a (possibly empty) units word. */
  function Tail(n: nat, started: bool): (ts: seq<Token>)
    requires n < 100
    ensures AllWellFormed(ts)
  {
    if n == 0 then []
    else (if started then [And] else [])
         + (if n < 20 then [Unit(n)] else [Tens(n / 10), Unit(n % 10)])
  }

  /** `inWords(n)`: words of the tables only, and none at all exactly for 0. */
  function InWords(n: nat): (ts: seq<Token>)
    ensures AllWellFormed(ts)
    ensures ts == [] <==> n == 0
    decreases n, 5
  {
    Groups(n, 0, false)
  }

  /** The steps of `inWords` from scale level `i` on: `started` records whether
      earlier words exist (`str !== ""`). */
  function Groups(n: nat, i: nat, started: bool): (ts: seq<Token>)
    requires i <= 4
    requires i == 4 ==> n < 100
    ensures AllWellFormed(ts)
    ensures ts == [] <==> n == 0
    decreases n, 4 - i
  {
    if i == 4 then Tail(n, started)
    else if n >= ScaleValue(i) then
      InWords(n / ScaleValue(i)) + [ScaleWord(ScaleAt(i))] + Groups(n % ScaleValue(i), i + 1, true)
    else Groups(n, i + 1, started)
  }

  // ---------------------------------------------------------------------
  // Reading the words back

  /** The value of the 0-99 tail words; other tokens count nothing. */
  function TailValue(ts: seq<Token>): nat {
    if |ts| == 0 then 0
    else TailValue(ts[..|ts| - 1])
         + (match ts[|ts| - 1] case Unit(u) => u case Tens(t) => 10 * t case _ => 0)
  }

  /** Position of the last occurrence of `t` in `ts`. */
  function LastIndexOf(ts: seq<Token>, t: Token): (p: nat)
    requires t in ts
    ensures p < |ts| && ts[p] == t
    ensures t !in ts[p + 1..]
  {
    if ts[|ts| - 1] == t then |ts| - 1
    else
      assert t in ts[..|ts| - 1] by {
        var j :| 0 <= j < |ts| && ts[j] == t;
        assert ts[..|ts| - 1][j] == t;
      }
      LastIndexOf(ts[..|ts| - 1], t)
  }

  /** Reads words from scale level `i` on: the last word of the level's scale
      splits the quotient's words from the rest. */
  function ValueAt(ts: seq<Token>, i: nat): nat
    requires i <= 4
    decreases |ts|, 4 - i
  {
    if i == 4 then TailValue(ts)
    else if ScaleWord(ScaleAt(i)) in ts then
      var p := LastIndexOf(ts, ScaleWord(ScaleAt(i)));
      ValueAt(ts[..p], 0) * ScaleValue(i) + ValueAt(ts[p + 1..], i + 1)
    else ValueAt(ts, i + 1)
  }

  /** The number a list of number words denotes. */
  function Value(ts: seq<Token>): nat {
    ValueAt(ts, 0)
  }

  /** Scale words of level `j` or above only: none of the levels before `j`. */
  predicate NoScaleBefore(ts: seq<Token>, j: nat) {
    forall k :: 0 <= k < j && k < 4 ==> ScaleWord(ScaleAt(k)) !in ts
  }

  lemma {:induction false} TailFacts(n: nat, started: bool)
    requires n < 100
    ensures NoScaleBefore(Tail(n, started), 4)
    ensures TailValue(Tail(n, started)) == n
  {
    var ts := Tail(n, started);
    if n > 0 {
      if n < 20 {
        assert TailValue(ts) == TailValue(ts[..|ts| - 1]) + n;
        if started { assert ts[..1] == [And]; assert [And][..0] == []; }
      } else {
        var tail := [Tens(n / 10), Unit(n % 10)];
        assert tail[..1] == [Tens(n / 10)] && tail[..1][..0] == [];
        assert TailValue(tail[..1]) == 10 * (n / 10);
        assert TailValue(tail) == TailValue(tail[..1]) + n % 10;
        if started {
          assert ts == [And] + tail;
          assert ts[..2] == [And, Tens(n / 10)];
          assert ts[..2][..1] == [And];
          assert [And][..0] == [];
        }
      }
    }
  }

  /** The visible words of the tail: "and" when earlier words exist, then
      the units-table word for 1-19, or for 20-99 the tens-table word
      followed by the units-table word of the last digit unless that digit
      is 0 (whose empty word leaves no trace). */
  lemma {:induction false} TailWords(n: nat, started: bool)
    requires 0 < n < 100
    ensures Visible(Spells(Tail(n, started)))
         == (if started then ["and"] else [])
            + (if n < 20 then [UnitWords[n]]
               else [TensWords[n / 10]] + (if n % 10 == 0 then [] else [UnitWords[n % 10]]))
  {
    var core := if n < 20 then [Unit(n)] else [Tens(n / 10), Unit(n % 10)];
    if n < 20 { UnitTailWords(n); } else { TensTailWords(n); }
    if started {
      assert Tail(n, started) == [And] + core;
      assert Spells([And] + core) == ["and"] + Spells(core) by {
        assert ([And] + core)[1..] == core;
      }
      assert (["and"] + Spells(core))[1..] == Spells(core);
    } else {
      assert Tail(n, started) == core;
    }
  }

  /** The visible words of a tail below twenty. */
  lemma {:induction false} UnitTailWords(n: nat)
    requires 0 < n < 20
    ensures Visible(Spells([Unit(n)])) == [UnitWords[n]]
  {
    UnitWordPresent(n);
    assert Spells([Unit(n)]) == [UnitWords[n]];
    assert [UnitWords[n]][1..] == [];
  }

  /** The visible words of a tail from twenty on. */
  lemma {:induction false} TensTailWords(n: nat)
    requires 20 <= n < 100
    ensures Visible(Spells([Tens(n / 10), Unit(n % 10)]))
         == [TensWords[n / 10]] + (if n % 10 == 0 then [] else [UnitWords[n % 10]])
  {
    var core := [Tens(n / 10), Unit(n % 10)];
    TensWordPresent(n / 10);
    var sp := [TensWords[n / 10], UnitWords[n % 10]];
    assert Spells(core) == sp by {
      assert core[1..] == [Unit(n % 10)];
      assert Spells(core[1..]) == [UnitWords[n % 10]];
    }
    assert sp[1..] == [UnitWords[n % 10]] && sp[1..][1..] == [];
    if n % 10 != 0 {
      UnitWordPresent(n % 10);
    }
  }

  /** Every units-table entry but the first is a word. */
  lemma {:induction false} UnitWordPresent(u: nat)
    requires 0 < u < 20
    ensures UnitWords[u] != ""
  {
    assert forall k :: 0 < k < 20 ==> |UnitWords[k]| > 0;
  }

  /** Every tens-table entry from twenty on is a word. */
  lemma {:induction false} TensWordPresent(t: nat)
    requires 2 <= t < 10
    ensures TensWords[t] != ""
  {
    assert forall k :: 2 <= k < 10 ==> |TensWords[k]| > 0;
  }

  /** Below 100 the words are the tail alone. */
  lemma {:induction false} InWordsSmall(n: nat)
    requires n < 100
    ensures InWords(n) == Tail(n, false)
  {
    assert Groups(n, 3, false) == Tail(n, false);
    assert Groups(n, 2, false) == Tail(n, false);
    assert Groups(n, 1, false) == Tail(n, false);
  }

  /** A remainder below the previous scale unit produces no scale word of an
      earlier level. */
  lemma {:induction false} GroupsNoScaleBefore(n: nat, i: nat, started: bool)
    requires 1 <= i <= 4
    requires n < ScaleValue(i - 1)
    ensures NoScaleBefore(Groups(n, i, started), i)
    decreases 4 - i
  {
    if i == 4 {
      TailFacts(n, started);
    } else if n >= ScaleValue(i) {
      var q := n / ScaleValue(i);
      var rest := Groups(n % ScaleValue(i), i + 1, true);
      assert NoScaleBefore(InWords(q), 4) by {
        QuotientBound(n, i);
        InWordsSmall(q);
        TailFacts(q, false);
      }
      assert NoScaleBefore(rest, i + 1) by {
        GroupsNoScaleBefore(n % ScaleValue(i), i + 1, true);
      }
      NoScaleAround(InWords(q), i, rest);
    } else {
      GroupsNoScaleBefore(n, i + 1, started);
    }
  }

  lemma {:induction false} NoScaleAround(head: seq<Token>, i: nat, rest: seq<Token>)
    requires i < 4
    requires NoScaleBefore(head, 4) && NoScaleBefore(rest, i + 1)
    ensures NoScaleBefore(head + [ScaleWord(ScaleAt(i))] + rest, i)
  {
  }

  lemma {:induction false} QuotientBound(n: nat, i: nat)
    requires 1 <= i < 4 && n < ScaleValue(i - 1)
    ensures n / ScaleValue(i) < 100
  {
  }

  /** Reading back the words of the steps from level `i` on gives the number. */
  lemma {:induction false} GroupsValue(n: nat, i: nat, started: bool)
    requires i <= 4
    requires i > 0 ==> n < ScaleValue(i - 1)
    ensures ValueAt(Groups(n, i, started), i) == n
    decreases n, 4 - i
  {
    if i == 4 {
      TailFacts(n, started);
    } else if n >= ScaleValue(i) {
      var u := ScaleValue(i);
      DivMod(n, i);
      var rest := Groups(n % u, i + 1, true);
      var head := InWords(n / u);
      assert Groups(n, i, started) == head + [ScaleWord(ScaleAt(i))] + rest;
      assert ScaleWord(ScaleAt(i)) !in rest by {
        GroupsNoScaleBefore(n % u, i + 1, true);
      }
      assert Value(head) == n / u by {
        GroupsValue(n / u, 0, false);
      }
      assert ValueAt(rest, i + 1) == n % u by {
        GroupsValue(n % u, i + 1, true);
      }
      calc {
        ValueAt(Groups(n, i, started), i);
        { ValueAtSplit(head, i, rest); }
        Value(head) * u + ValueAt(rest, i + 1);
        (n / u) * u + n % u;
        n;
      }
    } else {
      GroupsNoScaleBefore(n, i + 1, started);
      GroupsValue(n, i + 1, started);
    }
  }

  /** Division by a scale unit: the quotient and remainder rebuild `n`, the
      remainder is below the unit, and a number of at least one unit has a
      smaller quotient. */
  lemma {:induction false} DivMod(n: nat, i: nat)
    requires i < 4
    ensures (n / ScaleValue(i)) * ScaleValue(i) + n % ScaleValue(i) == n
    ensures n % ScaleValue(i) < ScaleValue(i)
    ensures n >= ScaleValue(i) ==> n / ScaleValue(i) < n
  {
    if i == 0 {
      assert (n / 10000000) * 10000000 + n % 10000000 == n;
    } else if i == 1 {
      assert (n / 100000) * 100000 + n % 100000 == n;
    } else if i == 2 {
      assert (n / 1000) * 1000 + n % 1000 == n;
    } else {
      assert (n / 100) * 100 + n % 100 == n;
    }
  }

  /** The last scale word of a level splits the words into quotient and rest. */
  lemma {:induction false} ValueAtSplit(head: seq<Token>, i: nat, rest: seq<Token>)
    requires i < 4
    requires ScaleWord(ScaleAt(i)) !in rest
    ensures ValueAt(head + [ScaleWord(ScaleAt(i))] + rest, i) == Value(head) * ScaleValue(i) + ValueAt(rest, i + 1)
  {
    var s := ScaleWord(ScaleAt(i));
    var ts := head + [s] + rest;
    LastIndexAfter(head, s, rest);
    assert ts[..|head|] == head && ts[|head| + 1..] == rest;
  }

  lemma {:induction false} LastIndexAfter(head: seq<Token>, t: Token, rest: seq<Token>)
    requires t !in rest
    ensures t in head + [t] + rest
    ensures LastIndexOf(head + [t] + rest, t) == |head|
    decreases |rest|
  {
    var ts := head + [t] + rest;
    assert ts[|head|] == t;
    if |rest| > 0 {
      assert ts[..|ts| - 1] == head + [t] + rest[..|rest| - 1];
      assert rest[|rest| - 1] in rest;
      LastIndexAfter(head, t, rest[..|rest| - 1]);
    }
  }

  /** The words of `inWords` read back to the number they spell. */
  lemma {:induction false} InWordsRoundTrip(n: nat)
    ensures Value(InWords(n)) == n
  {
    GroupsValue(n, 0, false);
  }

  /** The words of a number are the words of its round hundreds, then "and"
      exactly when those exist, then the 0-99 tail. */
  lemma {:induction false} AndBeforeTail(n: nat)
    ensures InWords(n) == InWords(n - n % 100) + Tail(n % 100, n >= 100)
  {
    GroupsSplit(n, 0, false);
  }

  lemma {:induction false} GroupsSplit(n: nat, i: nat, started: bool)
    requires i <= 4
    requires i > 0 ==> n < ScaleValue(i - 1)
    requires i == 4 ==> n < 100
    ensures Groups(n, i, started) == Groups(n - n % 100, i, started) + Tail(n % 100, started || n >= 100)
    decreases 4 - i, 1
  {
    var r := n % 100;
    if i == 4 {
      assert n - r == 0 && r == n;
      assert Groups(0, 4, started) == [];
    } else if n >= ScaleValue(i) {
      GroupsSplitStep(n, i, started);
    } else {
      GroupsBelow(n, i, started);
      GroupsSplit(n, i + 1, started);
    }
  }

  /** Below a level's unit, `inWords` passes the number on to the next level;
      so does it for the number without its last two digits. */
  lemma {:induction false} GroupsBelow(n: nat, i: nat, started: bool)
    requires i < 4 && n < ScaleValue(i)
    requires i > 0 ==> n < ScaleValue(i - 1)
    ensures Groups(n, i, started) == Groups(n, i + 1, started)
    ensures Groups(n - n % 100, i, started) == Groups(n - n % 100, i + 1, started)
  {
  }

  /** At a level whose unit fits, the tail comes from the remainder. */
  lemma {:induction false} GroupsSplitStep(n: nat, i: nat, started: bool)
    requires i < 4 && n >= ScaleValue(i)
    requires i > 0 ==> n < ScaleValue(i - 1)
    ensures Groups(n, i, started) == Groups(n - n % 100, i, started) + Tail(n % 100, true)
    decreases 4 - i, 0
  {
    var u, r := ScaleValue(i), n % 100;
    var m := n % u;
    DivModHundred(n, i);
    DivMod(n, i);
    GroupsSplit(m, i + 1, true);
    var low := m - m % 100;
    var s := ScaleWord(ScaleAt(i));
    HundredsStep(n, i, low);
    var head := InWords(n / u);
    GroupsUnfold(n, i, started);
    GroupsUnfold(n - r, i, started);
    calc {
      Groups(n, i, started);
      head + [s] + Groups(n % u, i + 1, true);
      head + [s] + (Groups(low, i + 1, true) + Tail(r, true));
      { assert head + [s] + (Groups(low, i + 1, true) + Tail(r, true))
            == (head + [s] + Groups(low, i + 1, true)) + Tail(r, true); }
      (head + [s] + Groups(low, i + 1, true)) + Tail(r, true);
      Groups(n - r, i, started) + Tail(r, true);
    }
  }

  /** Dropping the last two digits of a number of at least one unit keeps
      it at least one unit, keeps its quotient, and leaves the remainder
      without its last two digits. */
  lemma {:induction false} HundredsStep(n: nat, i: nat, low: nat)
    requires i < 4 && n >= ScaleValue(i)
    requires low + n % 100 == n % ScaleValue(i)
    ensures n - n % 100 >= ScaleValue(i)
    ensures (n - n % 100) / ScaleValue(i) == n / ScaleValue(i)
    ensures (n - n % 100) % ScaleValue(i) == low
  {
    DivModHundred(n, i);
    DivMod(n - n % 100, i);
  }

  /** One step of `inWords` at a level whose unit fits: the quotient's words,
      the scale word, then the remainder's words. */
  lemma {:induction false} GroupsUnfold(n: nat, i: nat, started: bool)
    requires i < 4 && n >= ScaleValue(i)
    ensures Groups(n, i, started)
         == InWords(n / ScaleValue(i)) + [ScaleWord(ScaleAt(i))] + Groups(n % ScaleValue(i), i + 1, true)
  {
  }

  /** Removing the last two digits keeps the quotient by every scale and
      the last two digits of the remainder. */
  lemma {:induction false} DivModHundred(n: nat, i: nat)
    requires i < 4
    ensures (n - n % 100) / ScaleValue(i) == n / ScaleValue(i)
    ensures (n - n % 100) % ScaleValue(i) == n % ScaleValue(i) - n % 100
    ensures (n % ScaleValue(i)) % 100 == n % 100
  {
    if i == 0 { DropTens7(n); }
    else if i == 1 { DropTens5(n); }
    else if i == 2 { DropTens3(n); }
  }

  lemma {:induction false} DropTens7(n: nat)
    ensures (n - n % 100) / 10000000 == n / 10000000
    ensures (n - n % 100) % 10000000 == n % 10000000 - n % 100
    ensures (n % 10000000) % 100 == n % 100
  {
    var q, r := n / 10000000, n % 10000000;
    var a, b := r / 100, r % 100;
    Euclid(r, 100, a, b);
    Euclid(n, 100, 100000 * q + a, b);
    Euclid(n - b, 10000000, q, 100 * a);
  }

  lemma {:induction false} DropTens5(n: nat)
    ensures (n - n % 100) / 100000 == n / 100000
    ensures (n - n % 100) % 100000 == n % 100000 - n % 100
    ensures (n % 100000) % 100 == n % 100
  {
    var q, r := n / 100000, n % 100000;
    var a, b := r / 100, r % 100;
    Euclid(r, 100, a, b);
    Euclid(n, 100, 1000 * q + a, b);
    Euclid(n - b, 100000, q, 100 * a);
  }

  lemma {:induction false} DropTens3(n: nat)
    ensures (n - n % 100) / 1000 == n / 1000
    ensures (n - n % 100) % 1000 == n % 1000 - n % 100
    ensures (n % 1000) % 100 == n % 100
  {
    var q, r := n / 1000, n % 1000;
    var a, b := r / 100, r % 100;
    Euclid(r, 100, a, b);
    Euclid(n, 100, 10 * q + a, b);
    Euclid(n - b, 1000, q, 100 * a);
  }

  /** Euclidean division is unique: a quotient and a remainder that rebuild
      `n` are its quotient and remainder. */
  lemma {:induction false} Euclid(n: int, d: int, q: int, c: int)
    requires d == 100 || d == 1000 || d == 100000 || d == 10000000
    requires n == d * q + c && 0 <= c < d
    ensures n / d == q && n % d == c
  {
    if d == 100 {
      assert n == 100 * q + c;
    } else if d == 1000 {
      assert n == 1000 * q + c;
    } else if d == 100000 {
      assert n == 100000 * q + c;
    } else {
      assert n == 10000000 * q + c;
    }
  }

  // ---------------------------------------------------------------------
  // The sentence

  /** A paise count: two decimal places. */
  type Paise = p: nat | p < 100

  /** An amount as `toFixed(2)` splits it: whole rupees and paise. */
  datatype Amount = Amount(rupees: nat, paise: Paise)

  /** The words of `toWords`: "Rupees", the rupee words or "Zero", then
      "and <paise words> Paise" when there are paise. */
  function Sentence(a: Amount): (ts: seq<Token>)
    ensures AllWellFormed(ts)
  {
    var rupeeWords := InWords(a.rupees);
    [Rupees] + (if rupeeWords == [] then [Zero] else rupeeWords)
    + (if a.paise > 0 then [And] + InWords(a.paise) + [Paise] else [])
  }

  /** Reads a sentence back: the paise words sit between the last "and" and
      the closing "Paise". */
  function ReadSentence(ts: seq<Token>): Option<Amount> {
    if |ts| == 0 || ts[0] != Rupees then None
    else if ts[|ts| - 1] == Paise && And in ts[..|ts| - 1] then
      var p := LastIndexOf(ts[..|ts| - 1], And);
      if p == 0 then None
      else
        var paise := Value(ts[p + 1..|ts| - 1]);
        if paise < 100 then Some(Amount(Value(ts[1..p]), paise)) else None
    else Some(Amount(Value(ts[1..]), 0))
  }

  /** The sentence reads back to the amount it was made from. */
  lemma {:induction false} SentenceRoundTrip(a: Amount)
    ensures ReadSentence(Sentence(a)) == Some(a)
  {
    var rupeeWords := InWords(a.rupees);
    var body := if rupeeWords == [] then [Zero] else rupeeWords;
    assert Value(body) == a.rupees by {
      InWordsRoundTrip(a.rupees);
      if rupeeWords == [] { ZeroWordValue(); }
    }
    if a.paise > 0 {
      var pw := InWords(a.paise);
      assert And !in pw && Value(pw) == a.paise by {
        InWordsSmall(a.paise);
        InWordsRoundTrip(a.paise);
      }
      assert Sentence(a) == [Rupees] + body + [And] + pw + [Paise];
      ReadWithPaise(body, pw);
    } else {
      assert Sentence(a) == [Rupees] + body;
      assert body[|body| - 1] != Paise by {
        if rupeeWords != [] { LastIsNotPaise(a.rupees); }
      }
      ReadWithoutPaise(body);
    }
  }

  lemma {:induction false} ReadWithPaise(body: seq<Token>, pw: seq<Token>)
    requires And !in pw && Value(pw) < 100
    ensures ReadSentence([Rupees] + body + [And] + pw + [Paise]) == Some(Amount(Value(body), Value(pw)))
  {
    var ts := [Rupees] + body + [And] + pw + [Paise];
    var front := ts[..|ts| - 1];
    assert front == ([Rupees] + body) + [And] + pw;
    LastIndexAfter([Rupees] + body, And, pw);
    assert ts[1..|body| + 1] == body;
    assert ts[|body| + 2..|ts| - 1] == pw;
  }

  lemma {:induction false} ReadWithoutPaise(body: seq<Token>)
    requires |body| > 0 && body[|body| - 1] != Paise
    ensures ReadSentence([Rupees] + body) == Some(Amount(Value(body), 0))
  {
    assert ([Rupees] + body)[1..] == body;
  }

  lemma {:induction false} ZeroWordValue()
    ensures Value([Zero]) == 0
  {
    assert [Zero][..0] == [];
    assert ScaleWord(Crore) !in [Zero] && ScaleWord(Lakh) !in [Zero];
    assert ScaleWord(Thousand) !in [Zero] && ScaleWord(Hundred) !in [Zero];
  }

  lemma {:induction false} LastIsNotPaise(n: nat)
    requires InWords(n) != []
    ensures InWords(n)[|InWords(n)| - 1] != Paise
  {
    assert Paise !in InWords(n) by { NoPaise(n, 0, false); }
  }

  lemma {:induction false} NoPaise(n: nat, i: nat, started: bool)
    requires i <= 4
    requires i == 4 ==> n < 100
    ensures Paise !in Groups(n, i, started) && Zero !in Groups(n, i, started)
    decreases n, 4 - i
  {
    if i < 4 {
      if n >= ScaleValue(i) {
        NoPaise(n / ScaleValue(i), 0, false);
        NoPaise(n % ScaleValue(i), i + 1, true);
      } else {
        NoPaise(n, i + 1, started);
      }
    }
  }

  /** The frame of the sentence: it opens with "Rupees"; "Zero" stands for
      the rupee words exactly when there are no whole rupees; and a paise
      clause, closed by "Paise", is present exactly when there are paise. */
  lemma {:induction false} SentenceFrame(a: Amount)
    ensures |Sentence(a)| >= 2 && Sentence(a)[0] == Rupees
    ensures Sentence(a)[1] == Zero <==> a.rupees == 0
    ensures Zero in Sentence(a) <==> a.rupees == 0
    ensures Paise in Sentence(a) <==> a.paise > 0
  {
    var rw := InWords(a.rupees);
    NoPaise(a.rupees, 0, false);
    NoPaise(a.paise, 0, false);
    var body := if rw == [] then [Zero] else rw;
    var clause := if a.paise > 0 then [And] + InWords(a.paise) + [Paise] else [];
    assert Sentence(a) == [Rupees] + body + clause;
    if rw != [] {
      assert rw[0] in rw;
    }
    if a.paise > 0 {
      assert Paise == Sentence(a)[|Sentence(a)| - 1];
    } else {
      assert Paise !in [Rupees] + body;
    }
    if a.rupees == 0 {
      assert Sentence(a)[1] == Zero;
    } else {
      assert Zero !in [Rupees] + body;
      assert Zero !in clause;
    }
  }

  // ---------------------------------------------------------------------
  // toWords

  /** The spoken form of an amount: the sentence's non-empty words separated
      by single spaces, with "only" glued to the last one. */
  function Spoken(a: Amount): string {
    Join(Visible(Spells(Sentence(a)))) + "only"
  }

  /** `toWords`: `null`/`undefined` gives the empty string; otherwise the
      sentence's pieces, each followed by a space, with whitespace runs
      collapsed, trimmed, and "only" appended with no space before it. The
      text is therefore the sentence's non-empty words separated by single
      spaces, with "only" glued to the last one. */
  function ToWords(x: Option<Amount>): (r: string)
    ensures x.None? ==> r == ""
    ensures x.Some? ==> r == Spoken(x.value)
  {
    match x
    case None => ""
    case Some(a) =>
      var ws := Spells(Sentence(a));
      SpellsSolid(Sentence(a));
      TrimCollapseSpaced(ws);
      Trim(Collapse(Spaced(ws))) + "only"
  }

  /** No word of the tables contains whitespace. */
  lemma {:induction false} SpellSolid(t: Token)
    requires WellFormed(t)
    ensures Solid(Spell(t))
  {
    var w := Spell(t);
    forall i | 0 <= i < |w| ensures !IsSpace(w[i]) {
      assert 'A' <= w[i] <= 'Z' || 'a' <= w[i] <= 'z';
      LetterNotSpace(w[i]);
    }
  }

  lemma {:induction false} LetterNotSpace(c: char)
    requires 'A' <= c <= 'Z' || 'a' <= c <= 'z'
    ensures !IsSpace(c)
  {
  }

  /** No spelled word contains whitespace. */
  lemma {:induction false} SpellsSolid(ts: seq<Token>)
    requires AllWellFormed(ts)
    ensures AllSolid(Spells(ts))
  {
    var ws := Spells(ts);
    forall i | 0 <= i < |ws| ensures Solid(ws[i]) {
      SpellSolid(ts[i]);
    }
  }

  /** `null` and `undefined` give the empty string. */
  lemma {:induction false} ToWordsMissing()
    ensures ToWords(None) == ""
  {
  }

  /** A round hundred: no space before "only". */
  lemma {:induction false} SpokenHundred(a: Amount)
    requires a.rupees == 100 && a.paise == 0
    ensures Spoken(a) == "Rupees One Hundredonly"
  {
    HundredSentence(a);
    HundredText();
  }

  lemma {:induction false} HundredSentence(a: Amount)
    requires a.rupees == 100 && a.paise == 0
    ensures Sentence(a) == [Rupees, Unit(1), ScaleWord(Hundred)]
  {
    InWordsSmall(1);
    assert Groups(100, 3, false) == InWords(1) + [ScaleWord(Hundred)] + Groups(0, 4, true);
  }

  lemma {:induction false} HundredText()
    ensures Join(Visible(Spells([Rupees, Unit(1), ScaleWord(Hundred)]))) == "Rupees One Hundred"
  {
    var ts := [Rupees, Unit(1), ScaleWord(Hundred)];
    var ws := ["Rupees", "One", "Hundred"];
    assert Spells(ts[2..]) == ["Hundred"];
    assert Spells(ts[1..]) == ["One"] + Spells(ts[2..]);
    assert Spells(ts) == ["Rupees"] + Spells(ts[1..]);
    assert Visible(ws) == ws;
    assert Join(ws) == "Rupees One Hundred";
  }

  /** Zero rupees fall back to "Zero". */
  lemma {:induction false} SpokenZero(a: Amount)
    requires a.rupees == 0 && a.paise == 0
    ensures Spoken(a) == "Rupees Zeroonly"
  {
    ZeroSentence(a);
    ZeroText();
  }

  lemma {:induction false} ZeroSentence(a: Amount)
    requires a.rupees == 0 && a.paise == 0
    ensures Sentence(a) == [Rupees, Zero]
  {
  }

  lemma {:induction false} ZeroText()
    ensures Join(Visible(Spells([Rupees, Zero]))) == "Rupees Zero"
  {
    assert Spells([Rupees, Zero]) == ["Rupees", "Zero"];
    JoinVisibleTwo("Rupees", "Zero");
  }

  /** A round ten leaves an empty units word, whose doubled space the
      clean-up removes; paise follow after "and". */
  lemma {:induction false} SpokenWithPaise(a: Amount)
    requires a.rupees == 20 && a.paise == 5
    ensures Spoken(a) == "Rupees Twenty and Five Paiseonly"
  {
    PaiseSentence(a);
    PaiseText();
  }

  lemma {:induction false} PaiseSentence(a: Amount)
    requires a.rupees == 20 && a.paise == 5
    ensures Sentence(a) == [Rupees, Tens(2), Unit(0), And, Unit(5), Paise]
  {
    InWordsSmall(20);
    InWordsSmall(5);
  }

  lemma {:induction false} PaiseText()
    ensures Join(Visible(Spells([Rupees, Tens(2), Unit(0), And, Unit(5), Paise])))
         == "Rupees Twenty and Five Paise"
  {
    PaiseSpelled();
    PaiseJoined();
  }

  lemma {:induction false} PaiseSpelled()
    ensures Spells([Rupees, Tens(2), Unit(0), And, Unit(5), Paise])
         == ["Rupees", "Twenty", "", "and", "Five", "Paise"]
  {
    var ts := [Rupees, Tens(2), Unit(0), And, Unit(5), Paise];
    assert Spells(ts[5..]) == ["Paise"];
    assert Spells(ts[4..]) == ["Five"] + Spells(ts[5..]);
    assert Spells(ts[3..]) == ["and"] + Spells(ts[4..]);
    assert Spells(ts[2..]) == [""] + Spells(ts[3..]);
    assert Spells(ts[1..]) == ["Twenty"] + Spells(ts[2..]);
  }

  lemma {:induction false} PaiseJoined()
    ensures Join(Visible(["Rupees", "Twenty", "", "and", "Five", "Paise"])) == "Rupees Twenty and Five Paise"
  {
    var ws := ["Rupees", "Twenty", "", "and", "Five", "Paise"];
    assert Visible(ws[5..]) == ["Paise"];
    assert Visible(ws[4..]) == ["Five", "Paise"];
    assert Visible(ws[3..]) == ["and", "Five", "Paise"];
    assert Visible(ws[2..]) == ["and", "Five", "Paise"];
    assert Visible(ws[1..]) == ["Twenty", "and", "Five", "Paise"];
    var vs := ["Rupees", "Twenty", "and", "Five", "Paise"];
    assert Visible(ws) == vs;
    assert Join(vs[4..]) == "Paise";
    assert Join(vs[3..]) == "Five Paise";
    assert Join(vs[2..]) == "and Five Paise";
    assert Join(vs[1..]) == "Twenty and Five Paise";
  }
}

=== FILE: cursor.dfy ===
/** The vertical cursor shared by both PDF generators: a page geometry, the
    "break if the next block would overflow" rule, and the same rule applied
    to a list of rows one after the other. Heights are exact reals measured
    by the text engine; the model takes them as inputs. */
module Cursor {

  /** A page size with its top and bottom margins. */
  datatype Page = Page(height: real, top: real, bottom: real)

  /** How a page was started: the first page, a continuation page, the page
      titled "(Tax Analysis)", or a page with no title of its own. */
  datatype Title = Opening | Continuation | TaxAnalysis | Plain

  /** The cursor and the pages opened so far, oldest first. */
  datatype State = State(y: real, pages: seq<Title>)

  /** pdfkit's A4 sheet, 595.28 by 841.89 points. */
  const A4Width: real := 595.28
  const A4Height: real := 841.89

  /** An A4 page with the same margin on every side. */
  function A4(margin: real): Page {
    Page(A4Height, margin, margin)
  }

  /** `page.height - page.margins.bottom`: the lowest usable position. */
  function Limit(p: Page): real {
    p.height - p.bottom
  }

  /** The space between the margins. */
  function Usable(p: Page): real {
    Limit(p) - p.top
  }

  /** A block of height `need` drawn at `y` would cross the bottom margin. */
  predicate Overflows(p: Page, y: real, need: real) {
    y + need > Limit(p)
  }

  /** Ask for `need` points before drawing: when the block would overflow,
      open one page titled `title` and continue at `resume`; otherwise leave
      everything as it is. */
  function BreakBefore(p: Page, s: State, need: real, resume: real, title: Title): (r: State)
    ensures Overflows(p, s.y, need) <==> |r.pages| == |s.pages| + 1
    ensures !Overflows(p, s.y, need) <==> r == s
    ensures r.pages[..|s.pages|] == s.pages
    ensures |r.pages| > |s.pages| ==> r.pages[|s.pages|] == title && r.y == resume
    ensures need <= Limit(p) - resume ==> r.y + need <= Limit(p)
  {
    if Overflows(p, s.y, need) then State(resume, s.pages + [title]) else s
  }

  /** One row: the space it asks for, the cursor movement caused while its
      text is drawn, after which the cursor moves by `need` as well. */
  datatype Row = Row(need: real, gap: real)

  /** The outcome of laying out rows: the final state, the cursor at each
      row's space request, and where each row was drawn. */
  datatype Flowed = Flowed(end: State, at: seq<real>, tops: seq<real>)

  /** The layout of `rows` from `s`, each row asking for its space, drawn
      where the request left the cursor, and followed by its gap and its
      own height. `FlowSteps` states the layout row by row. */
  function Flow(p: Page, s: State, rows: seq<Row>, resume: real, title: Title): (r: Flowed)
    ensures |r.at| == |rows| && |r.tops| == |rows|
    decreases |rows|
  {
    if |rows| == 0 then Flowed(s, [], [])
    else
      var b := BreakBefore(p, s, rows[0].need, resume, title);
      var rest := Flow(p, State(b.y + rows[0].gap + rows[0].need, b.pages), rows[1..], resume, title);
      Flowed(rest.end, [s.y] + rest.at, [b.y] + rest.tops)
  }

  /** Row by row: the first request is made at the starting cursor; a row is
      drawn at `resume` exactly when it overflows at its request and where
      the cursor stood otherwise; the next request is made below the row's
      gap and height; and the cursor ends below the last row. */
  lemma {:induction false} FlowSteps(p: Page, s: State, rows: seq<Row>, resume: real, title: Title)
    ensures var r := Flow(p, s, rows, resume, title);
      && (|rows| > 0 ==> r.at[0] == s.y)
      && (forall i :: 0 <= i < |rows| ==>
            r.tops[i] == (if Overflows(p, r.at[i], rows[i].need) then resume else r.at[i]))
      && (forall i :: 0 <= i < |rows| - 1 ==>
            r.at[i + 1] == r.tops[i] + rows[i].gap + rows[i].need)
      && r.end.y == (if |rows| == 0 then s.y
                     else r.tops[|rows| - 1] + rows[|rows| - 1].gap + rows[|rows| - 1].need)
    decreases |rows|
  {
    if |rows| > 0 {
      var r := Flow(p, s, rows, resume, title);
      var b := BreakBefore(p, s, rows[0].need, resume, title);
      var s' := State(b.y + rows[0].gap + rows[0].need, b.pages);
      var rest := Flow(p, s', rows[1..], resume, title);
      assert r == Flowed(rest.end, [s.y] + rest.at, [b.y] + rest.tops);
      FlowSteps(p, s', rows[1..], resume, title);
      forall i | 0 <= i < |rows|
        ensures r.tops[i] == (if Overflows(p, r.at[i], rows[i].need) then resume else r.at[i])
      {
        if i > 0 {
          assert r.tops[i] == rest.tops[i - 1] && r.at[i] == rest.at[i - 1];
          assert rows[1..][i - 1] == rows[i];
        }
      }
      forall i | 0 <= i < |rows| - 1 ensures r.at[i + 1] == r.tops[i] + rows[i].gap + rows[i].need {
        if i > 0 {
          assert r.tops[i] == rest.tops[i - 1] && r.at[i + 1] == rest.at[i];
          assert rows[1..][i - 1] == rows[i];
        }
      }
      if |rows| > 1 {
        assert rows[1..][|rows| - 2] == rows[|rows| - 1];
      }
    }
  }

  /** No row overflowed at its request. */
  predicate NoneOverflow(p: Page, at: seq<real>, rows: seq<Row>)
    requires |at| == |rows|
  {
    forall i :: 0 <= i < |rows| ==> !Overflows(p, at[i], rows[i].need)
  }

  /** How many rows overflowed at their requests. */
  function Overflowing(p: Page, at: seq<real>, rows: seq<Row>): (k: nat)
    requires |at| == |rows|
    ensures k <= |rows|
    decreases |rows|
  {
    if |rows| == 0 then 0
    else (if Overflows(p, at[0], rows[0].need) then 1 else 0) + Overflowing(p, at[1..], rows[1..])
  }

  /** The pages opened while laying out rows: every earlier page stays,
      exactly one page is added for each row that overflowed at its request,
      and each added page carries `title`. So at most one page per row is
      added, and a page is added exactly when some row overflowed. */
  lemma {:induction false} FlowPages(p: Page, s: State, rows: seq<Row>, resume: real, title: Title)
    ensures var r := Flow(p, s, rows, resume, title);
      && |r.end.pages| == |s.pages| + Overflowing(p, r.at, rows)
      && |s.pages| <= |r.end.pages| <= |s.pages| + |rows|
      && r.end.pages[..|s.pages|] == s.pages
      && (forall j :: |s.pages| <= j < |r.end.pages| ==> r.end.pages[j] == title)
      && (|r.end.pages| == |s.pages| <==> NoneOverflow(p, r.at, rows))
    decreases |rows|
  {
    if |rows| > 0 {
      var b := BreakBefore(p, s, rows[0].need, resume, title);
      var s' := State(b.y + rows[0].gap + rows[0].need, b.pages);
      var rest := Flow(p, s', rows[1..], resume, title);
      var r := Flow(p, s, rows, resume, title);
      FlowPages(p, s', rows[1..], resume, title);
      assert r.end == rest.end && r.at == [s.y] + rest.at;
      assert r.at[1..] == rest.at;
      assert r.end.pages[..|s.pages|] == s.pages by {
        assert r.end.pages[..|s.pages|] == rest.end.pages[..|s'.pages|][..|s.pages|];
      }
      forall j | |s.pages| <= j < |r.end.pages| ensures r.end.pages[j] == title {
        if j >= |s'.pages| {
        } else {
          assert r.end.pages[j] == rest.end.pages[..|s'.pages|][j] == b.pages[j];
        }
      }
      if NoneOverflow(p, r.at, rows) {
        assert !Overflows(p, r.at[0], rows[0].need);
        forall i | 0 <= i < |rows[1..]| ensures !Overflows(p, rest.at[i], rows[1..][i].need) {
          assert rest.at[i] == r.at[i + 1] && rows[1..][i] == rows[i + 1];
        }
      }
      if |r.end.pages| == |s.pages| {
        forall i | 0 <= i < |rows| ensures !Overflows(p, r.at[i], rows[i].need) {
          if i > 0 {
            assert rest.at[i - 1] == r.at[i] && rows[1..][i - 1] == rows[i];
          }
        }
      }
    }
  }

  /** Every row no taller than the space below `resume` is drawn wholly
      above the bottom margin, wherever the cursor stood before it. */
  lemma {:induction false} FlowFits(p: Page, s: State, rows: seq<Row>, resume: real, title: Title)
    requires forall i :: 0 <= i < |rows| ==> rows[i].need <= Limit(p) - resume
    ensures var r := Flow(p, s, rows, resume, title);
      forall i :: 0 <= i < |rows| ==> r.tops[i] + rows[i].need <= Limit(p)
  {
    FlowSteps(p, s, rows, resume, title);
  }

  /** The total movement of rows drawn without a page break. */
  function Advance(rows: seq<Row>): real {
    if |rows| == 0 then 0.0
    else Advance(rows[..|rows| - 1]) + rows[|rows| - 1].gap + rows[|rows| - 1].need
  }

  /** Without a page break the rows stack: each one is drawn where the
      previous one ended, and the cursor ends lower by exactly their total
      movement, on the same page. */
  lemma {:induction false} FlowStacks(p: Page, s: State, rows: seq<Row>, resume: real, title: Title)
    requires NoneOverflow(p, Flow(p, s, rows, resume, title).at, rows)
    ensures var r := Flow(p, s, rows, resume, title);
      && r.end == State(s.y + Advance(rows), s.pages)
      && (forall i :: 0 <= i < |rows| ==> r.tops[i] == s.y + Advance(rows[..i]))
  {
    var r := Flow(p, s, rows, resume, title);
    FlowSteps(p, s, rows, resume, title);
    FlowPages(p, s, rows, resume, title);
    forall i | 0 <= i < |rows| ensures r.tops[i] == s.y + Advance(rows[..i]) {
      StackedTop(p, s, rows, resume, title, i);
    }
    if |rows| > 0 {
      var n := |rows| - 1;
      assert rows[..|rows|] == rows;
      assert rows[..n + 1][..n] == rows[..n];
    }
    assert r.end.pages == r.end.pages[..|s.pages|];
  }

  lemma {:induction false} StackedTop(p: Page, s: State, rows: seq<Row>, resume: real, title: Title, i: nat)
    requires i < |rows|
    requires NoneOverflow(p, Flow(p, s, rows, resume, title).at, rows)
    ensures Flow(p, s, rows, resume, title).tops[i] == s.y + Advance(rows[..i])
  {
    var r := Flow(p, s, rows, resume, title);
    FlowSteps(p, s, rows, resume, title);
    assert !Overflows(p, r.at[i], rows[i].need);
    if i > 0 {
      StackedTop(p, s, rows, resume, title, i - 1);
      assert rows[..i][..i - 1] == rows[..i - 1];
    }
  }

  /** Laying out two lists one after the other is laying out their
      concatenation. */
  lemma {:induction false} FlowAppend(p: Page, s: State, xs: seq<Row>, ys: seq<Row>, resume: real, title: Title)
    ensures var a := Flow(p, s, xs, resume, title);
      var b := Flow(p, a.end, ys, resume, title);
      Flow(p, s, xs + ys, resume, title) == Flowed(b.end, a.at + b.at, a.tops + b.tops)
    decreases |xs|
  {
    if |xs| == 0 {
      assert xs + ys == ys;
    } else {
      var c := BreakBefore(p, s, xs[0].need, resume, title);
      var s' := State(c.y + xs[0].gap + xs[0].need, c.pages);
      FlowAppend(p, s', xs[1..], ys, resume, title);
      FlowAppendStep(p, s, xs, ys, resume, title);
    }
  }

  lemma {:induction false} FlowAppendStep(p: Page, s: State, xs: seq<Row>, ys: seq<Row>, resume: real, title: Title)
    requires |xs| > 0
    requires var c := BreakBefore(p, s, xs[0].need, resume, title);
      var s' := State(c.y + xs[0].gap + xs[0].need, c.pages);
      var a := Flow(p, s', xs[1..], resume, title);
      var b := Flow(p, a.end, ys, resume, title);
      Flow(p, s', xs[1..] + ys, resume, title) == Flowed(b.end, a.at + b.at, a.tops + b.tops)
    ensures var a := Flow(p, s, xs, resume, title);
      var b := Flow(p, a.end, ys, resume, title);
      Flow(p, s, xs + ys, resume, title) == Flowed(b.end, a.at + b.at, a.tops + b.tops)
  {
    var c := BreakBefore(p, s, xs[0].need, resume, title);
    var s' := State(c.y + xs[0].gap + xs[0].need, c.pages);
    var a' := Flow(p, s', xs[1..], resume, title);
    var b := Flow(p, a'.end, ys, resume, title);
    var rest := Flow(p, s', xs[1..] + ys, resume, title);
    var whole := Flow(p, s, xs + ys, resume, title);
    var a := Flow(p, s, xs, resume, title);
    assert whole == Flowed(rest.end, [s.y] + rest.at, [c.y] + rest.tops) by {
      assert (xs + ys)[0] == xs[0];
      assert (xs + ys)[1..] == xs[1..] + ys;
      FlowCons(p, s, xs + ys, resume, title);
    }
    assert a == Flowed(a'.end, [s.y] + a'.at, [c.y] + a'.tops) by {
      FlowCons(p, s, xs, resume, title);
    }
    ConsThenAppend(whole, rest, a, a', b, s.y, c.y);
  }

  /** Putting a first row in front commutes with appending a second layout. */
  lemma ConsThenAppend(whole: Flowed, rest: Flowed, a: Flowed, a': Flowed, b: Flowed, y: real, t: real)
    requires whole == Flowed(rest.end, [y] + rest.at, [t] + rest.tops)
    requires a == Flowed(a'.end, [y] + a'.at, [t] + a'.tops)
    requires rest == Flowed(b.end, a'.at + b.at, a'.tops + b.tops)
    ensures whole == Flowed(b.end, a.at + b.at, a.tops + b.tops)
  {
    assert [y] + (a'.at + b.at) == ([y] + a'.at) + b.at;
    assert [t] + (a'.tops + b.tops) == ([t] + a'.tops) + b.tops;
  }

  lemma {:induction false} FlowCons(p: Page, s: State, rows: seq<Row>, resume: real, title: Title)
    requires |rows| > 0
    ensures var b := BreakBefore(p, s, rows[0].need, resume, title);
      var rest := Flow(p, State(b.y + rows[0].gap + rows[0].need, b.pages), rows[1..], resume, title);
      Flow(p, s, rows, resume, title) == Flowed(rest.end, [s.y] + rest.at, [b.y] + rest.tops)
  {
  }
}

=== FILE: invoice_layout.dfy ===
/** The cursor arithmetic of the invoice PDF: the fixed-height header and
    buyer boxes, the item table with its per-row page break, the footer and
    the tax-analysis block, each placed after an estimate-then-break test.
    Measured text heights are inputs; nothing is drawn. */
module InvoiceLayout {
  import opened Results
  import opened Sums
  import opened Cursor
  import InvoiceTotals

  /** The invoice is A4 with a 30-point margin on every side. */
  const Margin: real := 30.0
  const Sheet: Page := A4(Margin)

  const HeaderBoxHeight: real := 90.0
  const BuyerPaddingWithGstin: real := 45.0
  const BuyerPadding: real := 30.0
  /** The continuation header: title lines (45) and the rule below them (10). */
  const ContinuationHeight: real := 55.0
  const TableHeaderHeight: real := 20.0
  /** Vertical padding of an item row around the wrapped description. */
  const RowPadding: real := 8.0
  /** The space the footer asks for, and the two boxes it then draws. */
  const FooterNeed: real := 180.0
  const TotalsBoxHeight: real := 80.0
  const DeclarationBoxHeight: real := 90.0
  /** The tax-analysis block is drawn this far below the cursor. */
  const TaxGap: real := 15.0
  const TaxTitleHeight: real := 25.0
  const TaxHeaderHeight: real := 35.0
  const TaxRowHeight: real := 20.0
  const TaxTotalRowHeight: real := 20.0
  /** From the total row's bottom to the "Tax Amount (in words):" label, and
      from the label to the amount in words. */
  const TaxWordsGap: real := 10.0
  const TaxWordsLabel: real := 12.0

  /** Column widths of the item table and of the tax-analysis table. */
  const ItemColumns: seq<real> := [30.0, 215.0, 60.0, 30.0, 60.0, 40.0, 40.0, 60.0]
  const TaxColumns: seq<real> := [100.0, 105.0, 50.0, 60.0, 50.0, 60.0, 110.0]

  /** Text measurements the layout depends on: the wrapped height of an item
      name in the description column, the wrapped height of the buyer's
      address, and whether the buyer has a GSTIN line. */
  datatype Metrics = Metrics(nameHeight: string -> real, addressHeight: real, buyerGstin: bool)

  /** How the space for the tax-analysis block is estimated: as the code
      does, or from the block's drawn extent with the measured height of the
      tax amount in words. */
  datatype TaxEstimate = AsWritten | Corrected(wordsHeight: real)

  /** Where everything went: the buyer box, the item table's header, the item
      rows, the state in which the footer was drawn and the state in which
      the tax-analysis block was placed. */
  datatype Layout = Layout(
    buyerTop: real,
    tableTop: real,
    rows: Flowed,
    footer: State,
    tax: State)
  {
    function FooterBottom(): real { footer.y + TotalsBoxHeight + DeclarationBoxHeight }
    function TaxTop(): real { tax.y + TaxGap }
    function Pages(): seq<Title> { tax.pages }
  }

  // ---------------------------------------------------------------------
  // Section heights

  /** `generateHeaderAndInvoiceDetails`: the company and invoice box. */
  function HeaderAndDetails(y: real): real {
    y + HeaderBoxHeight
  }

  /** `generateBuyerDetails`: the address height plus room for the name, and
      for the GSTIN line when there is one. */
  function BuyerDetails(y: real, m: Metrics): real {
    y + m.addressHeight + (if m.buyerGstin then BuyerPaddingWithGstin else BuyerPadding)
  }

  /** `generateContinuationHeader`, with either title. */
  function ContinuationHeader(y: real): real {
    y + ContinuationHeight
  }

  /** `drawItemsTableHeader`. */
  function TableHeader(y: real): real {
    y + TableHeaderHeight
  }

  /** Where the item rows continue on a new page: below the continuation
      header and a repeated table header. */
  function RowResume(): real {
    TableHeader(ContinuationHeader(Sheet.top))
  }

  /** An item row is the wrapped name plus padding; no text movement follows
      it, the cursor moves by the row height only. */
  function ItemRow(it: InvoiceTotals.Item, m: Metrics): Row {
    Row(m.nameHeight(it.name) + RowPadding, 0.0)
  }

  function ItemRows(items: seq<InvoiceTotals.Item>, m: Metrics): seq<Row> {
    seq(|items|, i requires 0 <= i < |items| => ItemRow(items[i], m))
  }

  /** `generateInvoiceTable`: the table header, then each row after a break
      test that opens a continuation page. */
  function ItemsTable(s: State, items: seq<InvoiceTotals.Item>, m: Metrics): (r: Flowed)
    ensures |r.tops| == |items|
    ensures |s.pages| <= |r.end.pages| && r.end.pages[..|s.pages|] == s.pages
  {
    FlowPages(Sheet, State(TableHeader(s.y), s.pages), ItemRows(items, m), RowResume(), Continuation);
    Flow(Sheet, State(TableHeader(s.y), s.pages), ItemRows(items, m), RowResume(), Continuation)
  }

  /** `40 + (hsnGroups.length + 2) * 20` as written; the corrected estimate
      covers the block down to the bottom of the amount in words. */
  function TaxNeed(e: TaxEstimate, groups: nat): real {
    match e
    case AsWritten => 40.0 + (groups as real + 2.0) * 20.0
    case Corrected(w) => TaxExtent(groups, w)
  }

  /** How far below the cursor the tax-analysis block really reaches: the
      gap, the title, the header, a row per group, the total row, the gap to
      the label, the label and the amount in words. */
  function TaxExtent(groups: nat, wordsHeight: real): real {
    TaxTableExtent(groups) + TaxWordsGap + TaxWordsLabel + wordsHeight
  }

  /** How far below the cursor the table's total row ends. */
  function TaxTableExtent(groups: nat): real {
    TaxGap + TaxTitleHeight + TaxHeaderHeight + groups as real * TaxRowHeight + TaxTotalRowHeight
  }

  /** `generateInvoicePDF` after the totals: header, buyer, table, then the
      footer and the tax-analysis block each behind a break test. */
  function LayoutInvoice(items: seq<InvoiceTotals.Item>, groups: nat, m: Metrics, e: TaxEstimate): (l: Layout)
    ensures |l.rows.tops| == |items|
    ensures |l.Pages()| >= 1 && l.Pages()[0] == Opening
  {
    var buyerTop := HeaderAndDetails(Sheet.top);
    var tableTop := BuyerDetails(buyerTop, m);
    var rows := ItemsTable(State(tableTop, [Opening]), items, m);
    assert rows.end.pages[..1] == [Opening];
    var footer := BreakBefore(Sheet, rows.end, FooterNeed, ContinuationHeader(Sheet.top), Continuation);
    var afterFooter := footer.y + TotalsBoxHeight + DeclarationBoxHeight;
    var tax := BreakBefore(Sheet, State(afterFooter, footer.pages), TaxNeed(e, groups),
                           ContinuationHeader(Sheet.top), TaxAnalysis);
    Layout(buyerTop, tableTop, rows, footer, tax)
  }

  /** The whole invoice as the code lays it out: a malformed payload fails
      before any layout, and otherwise there is one row per item of the
      computed invoice, the installation line included. */
  function GenerateInvoicePdf(data: Option<InvoiceTotals.Payload>, m: Metrics): (r: Result<Layout, InvoiceTotals.Error>)
    ensures r.Failure? <==> !InvoiceTotals.WellShaped(data)
    ensures r.Success? ==>
      var items := data.value.invoice.value.items.value;
      && |r.value.rows.tops| == |InvoiceTotals.WithInstallation(items, data.value.invoice.value.installation)|
      && |items| <= |r.value.rows.tops| <= |items| + 1
      && |r.value.Pages()| >= 1 && r.value.Pages()[0] == Opening
  {
    match InvoiceTotals.CalculateTotals(data)
    case Failure(err) => Failure(err)
    case Success(c) =>
      InvoiceTotals.InstallationAddedAtMostOnce(data.value.invoice.value.items.value,
                                                data.value.invoice.value.installation);
      Success(LayoutInvoice(c.items, |c.groups|, m, AsWritten))
  }

  /** The whole invoice with the tax-analysis estimate corrected to the
      block's drawn extent, `wordsHeight` being the measured height of the
      tax amount in words: the same rows as the code, and the tax-analysis
      block, down to its last line, above the bottom margin whenever it fits
      on a fresh page at all. */
  function GenerateInvoicePdfCorrected(data: Option<InvoiceTotals.Payload>, m: Metrics, wordsHeight: real)
    : (r: Result<Layout, InvoiceTotals.Error>)
    ensures r.Failure? <==> !InvoiceTotals.WellShaped(data)
    ensures r.Success? ==>
      var items := data.value.invoice.value.items.value;
      && |r.value.rows.tops| == |InvoiceTotals.WithInstallation(items, data.value.invoice.value.installation)|
      && |r.value.Pages()| >= 1 && r.value.Pages()[0] == Opening
    ensures r.Success? ==>
      var groups := |InvoiceTotals.CalculateTotals(data).value.groups|;
      0.0 <= wordsHeight && TaxExtent(groups, wordsHeight) <= Limit(Sheet) - (Sheet.top + 55.0) ==>
        r.value.tax.y + TaxExtent(groups, wordsHeight) <= Limit(Sheet)
  {
    match InvoiceTotals.CalculateTotals(data)
    case Failure(err) => Failure(err)
    case Success(c) =>
      Success(LayoutInvoice(c.items, |c.groups|, m, Corrected(wordsHeight)))
  }

  // ---------------------------------------------------------------------
  // Properties of the layout

  /** The item rows: the first space request is made just below the table
      header; a row whose height overflows at its request is drawn below a
      continuation header and a repeated table header, and otherwise where
      the cursor stood; after each row the cursor has moved by that row's
      height (name height plus 8). */
  lemma {:induction false} ItemRowsAdvance(items: seq<InvoiceTotals.Item>, groups: nat, m: Metrics, e: TaxEstimate)
    ensures var l := LayoutInvoice(items, groups, m, e);
      var r := l.rows;
      && (|items| > 0 ==> r.at[0] == l.tableTop + 20.0)
      && (forall i :: 0 <= i < |items| ==>
            var h := m.nameHeight(items[i].name) + 8.0;
            r.tops[i] == (if r.at[i] + h > Limit(Sheet) then Sheet.top + 75.0 else r.at[i]))
      && (forall i :: 0 <= i < |items| - 1 ==>
            r.at[i + 1] == r.tops[i] + m.nameHeight(items[i].name) + 8.0)
  {
    var l := LayoutInvoice(items, groups, m, e);
    FlowSteps(Sheet, State(TableHeader(l.tableTop), [Opening]), ItemRows(items, m), RowResume(), Continuation);
  }

  /** The installation line is pushed after the request's items, so it is
      laid out last: the rows of the original items keep their request and
      drawing positions, and the installation row is requested where the
      last original row left the cursor. */
  lemma {:induction false} InstallationRowLast(s: State, items: seq<InvoiceTotals.Item>, inst: Option<InvoiceTotals.Installation>, m: Metrics)
    ensures var all := ItemsTable(s, InvoiceTotals.WithInstallation(items, inst), m);
      var own := ItemsTable(s, items, m);
      && |items| <= |all.at|
      && all.at[..|items|] == own.at
      && all.tops[..|items|] == own.tops
      && (|all.at| > |items| ==> all.at[|items|] == own.end.y)
  {
    var withInst := InvoiceTotals.WithInstallation(items, inst);
    var start := State(TableHeader(s.y), s.pages);
    var own := ItemsTable(s, items, m);
    if withInst != items {
      var extra := [InvoiceTotals.InstallationItem(inst.value)];
      assert withInst == items + extra;
      assert ItemRows(withInst, m) == ItemRows(items, m) + ItemRows(extra, m);
      FlowAppend(Sheet, start, ItemRows(items, m), ItemRows(extra, m), RowResume(), Continuation);
      var b := Flow(Sheet, own.end, ItemRows(extra, m), RowResume(), Continuation);
      assert b.at[0] == own.end.y;
    }
  }

  /** The opening page from its top margin down: the 90-point company and
      invoice box, the buyer box (address plus 45 points with a GSTIN, 30
      without), the 20-point table header, and then the first item, drawn
      right below the header on the opening page when it fits there. */
  lemma {:induction false} OpeningSections(items: seq<InvoiceTotals.Item>, groups: nat, m: Metrics, e: TaxEstimate)
    ensures var l := LayoutInvoice(items, groups, m, e);
      && l.buyerTop == Sheet.top + 90.0
      && l.tableTop == l.buyerTop + m.addressHeight + (if m.buyerGstin then 45.0 else 30.0)
      && (|items| > 0 ==> l.rows.at[0] == l.tableTop + 20.0)
      && (|items| > 0 && l.tableTop + 20.0 + m.nameHeight(items[0].name) + 8.0 <= Limit(Sheet) ==>
            l.rows.tops[0] == l.tableTop + 20.0)
  {
    var l := LayoutInvoice(items, groups, m, e);
    FlowSteps(Sheet, State(TableHeader(l.tableTop), [Opening]), ItemRows(items, m), RowResume(), Continuation);
  }

  /** An item whose name is not taller than a continuation page can hold is
      drawn wholly above the bottom margin. */
  lemma {:induction false} ItemRowsFit(items: seq<InvoiceTotals.Item>, groups: nat, m: Metrics, e: TaxEstimate)
    requires forall i :: 0 <= i < |items| ==> m.nameHeight(items[i].name) + 8.0 <= Limit(Sheet) - (Sheet.top + 75.0)
    ensures var l := LayoutInvoice(items, groups, m, e);
      forall i :: 0 <= i < |items| ==> l.rows.tops[i] + m.nameHeight(items[i].name) + 8.0 <= Limit(Sheet)
  {
    var l := LayoutInvoice(items, groups, m, e);
    FlowFits(Sheet, State(TableHeader(l.tableTop), [Opening]), ItemRows(items, m), RowResume(), Continuation);
  }

  /** The footer: a continuation page is opened before it exactly when the
      cursor is within 180 points of the bottom margin, the footer then starts
      below the continuation header, it takes exactly 170 points, and it
      always ends above the bottom margin. */
  lemma {:induction false} FooterPlacement(items: seq<InvoiceTotals.Item>, groups: nat, m: Metrics, e: TaxEstimate)
    ensures var l := LayoutInvoice(items, groups, m, e);
      var y := l.rows.end.y;
      && (y + 180.0 > Limit(Sheet) <==> l.footer.pages == l.rows.end.pages + [Continuation])
      && (y + 180.0 <= Limit(Sheet) <==> l.footer == l.rows.end)
      && l.footer.y == (if y + 180.0 > Limit(Sheet) then Sheet.top + 55.0 else y)
      && l.FooterBottom() == l.footer.y + 170.0
      && l.FooterBottom() <= Limit(Sheet)
  {
  }

  /** The tax-analysis block: a page titled "(Tax Analysis)" is opened after
      the footer exactly when the estimate overflows, the block then starts
      below that page's header, and no other page is opened for it. */
  lemma {:induction false} TaxPlacement(items: seq<InvoiceTotals.Item>, groups: nat, m: Metrics, e: TaxEstimate)
    ensures var l := LayoutInvoice(items, groups, m, e);
      var y := l.FooterBottom();
      && (y + TaxNeed(e, groups) > Limit(Sheet) <==> l.Pages() == l.footer.pages + [TaxAnalysis])
      && (y + TaxNeed(e, groups) <= Limit(Sheet) <==> l.Pages() == l.footer.pages)
      && l.TaxTop() == (if y + TaxNeed(e, groups) > Limit(Sheet) then Sheet.top + 55.0 else y) + 15.0
  {
  }

  /** As the code estimates it, the tax-analysis page is opened exactly when
      `y + 40 + (groups + 2) * 20` passes the bottom margin. */
  lemma {:induction false} TaxBreakAsWritten(items: seq<InvoiceTotals.Item>, groups: nat, m: Metrics)
    ensures var l := LayoutInvoice(items, groups, m, AsWritten);
      |l.Pages()| == |l.footer.pages| + 1
      <==> l.FooterBottom() + 40.0 + (groups as real + 2.0) * 20.0 > Limit(Sheet)
  {
    TaxPlacement(items, groups, m, AsWritten);
  }

  /** The pages of an invoice: the first page, then one continuation page
      for each item row that overflowed at its request and one when the
      footer did not fit, and last a page titled "(Tax Analysis)" exactly
      when the tax block did not fit after the footer. */
  lemma {:induction false} InvoicePages(items: seq<InvoiceTotals.Item>, groups: nat, m: Metrics, e: TaxEstimate)
    ensures var l := LayoutInvoice(items, groups, m, e);
      var ps := l.Pages();
      && |ps| == 1 + Overflowing(Sheet, l.rows.at, ItemRows(items, m))
                 + (if l.rows.end.y + FooterNeed > Limit(Sheet) then 1 else 0)
                 + (if l.FooterBottom() + TaxNeed(e, groups) > Limit(Sheet) then 1 else 0)
      && 1 <= |ps| <= |items| + 3
      && ps[0] == Opening
      && (forall j :: 1 <= j < |ps| - 1 ==> ps[j] == Continuation)
      && (|ps| > 1 ==> (ps[|ps| - 1] == TaxAnalysis
                        <==> l.FooterBottom() + TaxNeed(e, groups) > Limit(Sheet)))
      && (|ps| > 1 && ps[|ps| - 1] != TaxAnalysis ==> ps[|ps| - 1] == Continuation)
  {
    var l := LayoutInvoice(items, groups, m, e);
    var s := State(TableHeader(l.tableTop), [Opening]);
    FlowPages(Sheet, s, ItemRows(items, m), RowResume(), Continuation);
    var ps := l.Pages();
    var rp := l.rows.end.pages;
    assert rp[..1] == [Opening];
    assert forall j :: 1 <= j < |rp| ==> rp[j] == Continuation;
    assert forall j :: 1 <= j < |l.footer.pages| ==> l.footer.pages[j] == Continuation by {
      assert l.footer.pages[..|rp|] == rp;
      forall j | 1 <= j < |l.footer.pages| ensures l.footer.pages[j] == Continuation {
        if j < |rp| {
          assert l.footer.pages[j] == l.footer.pages[..|rp|][j];
        }
      }
    }
    assert ps[..|l.footer.pages|] == l.footer.pages;
    forall j | 1 <= j < |ps| - 1 ensures ps[j] == Continuation {
      assert ps[j] == ps[..|l.footer.pages|][j];
    }
    if |ps| > 1 && ps[|ps| - 1] != TaxAnalysis {
      assert |ps| == |l.footer.pages|;
      assert ps[|ps| - 1] == ps[..|l.footer.pages|][|ps| - 1];
    }
  }

  /** The item table's column widths add up to 535 points, which fits
      between the 30-point margins of an A4 page (595.28 - 60 = 535.28). */
  lemma {:induction false} ItemColumnWidths()
    ensures Sum(ItemColumns) == 535.0
    ensures Sum(ItemColumns) <= A4Width - 2.0 * Margin
  {
    var c := ItemColumns;
    assert c[..1][..0] == [] && c[..2][..1] == c[..1] && c[..3][..2] == c[..2] && c[..4][..3] == c[..3];
    assert c[..5][..4] == c[..4] && c[..6][..5] == c[..5] && c[..7][..6] == c[..6] && c[..8][..7] == c[..7];
    assert c[..8] == c;
    assert Sum(c[..1]) == 30.0;
    assert Sum(c[..2]) == 245.0;
    assert Sum(c[..3]) == 305.0;
    assert Sum(c[..4]) == 335.0;
    assert Sum(c[..5]) == 395.0;
    assert Sum(c[..6]) == 435.0;
    assert Sum(c[..7]) == 475.0;
  }

  /** The tax-analysis table's column widths add up to the same 535 points. */
  lemma {:induction false} TaxColumnWidths()
    ensures Sum(TaxColumns) == 535.0
    ensures Sum(TaxColumns) <= A4Width - 2.0 * Margin
  {
    var t := TaxColumns;
    assert t[..1][..0] == [] && t[..2][..1] == t[..1] && t[..3][..2] == t[..2] && t[..4][..3] == t[..3];
    assert t[..5][..4] == t[..4] && t[..6][..5] == t[..5] && t[..7][..6] == t[..6];
    assert t[..7] == t;
    assert Sum(t[..1]) == 100.0;
    assert Sum(t[..2]) == 205.0;
    assert Sum(t[..3]) == 255.0;
    assert Sum(t[..4]) == 315.0;
    assert Sum(t[..5]) == 365.0;
    assert Sum(t[..6]) == 425.0;
  }

  // ---------------------------------------------------------------------
  // The tax-analysis estimate

  /** As written, the estimate `40 + (groups + 2) * 20` is 15 points short of
      where the total row ends (drawn 15 below the cursor: title 25, header
      35, a row per group, total row 20), so a cursor within 15 points of the
      estimate's limit gets no new page and the total row crosses the bottom
      margin. */
  lemma {:induction false} TaxOverflowAsWritten(items: seq<InvoiceTotals.Item>, groups: nat, m: Metrics)
    ensures var l := LayoutInvoice(items, groups, m, AsWritten);
      var y := l.FooterBottom();
      Limit(Sheet) - TaxTableExtent(groups) < y <= Limit(Sheet) - TaxNeed(AsWritten, groups) ==>
        && l.Pages() == l.footer.pages
        && l.tax.y + TaxTableExtent(groups) > Limit(Sheet)
  {
    TaxPlacement(items, groups, m, AsWritten);
  }

  /** A concrete invoice showing it: one line ("Panel", HSN 8537, 1 x 100
      at 18%), so one tax group, a buyer without a GSTIN whose address
      measures 353.89 points, and a name measuring 10 points. The row fits on
      the opening page, the footer follows it there and ends 100 points above
      the bottom margin (at 711.89), the estimate of 100 points fits, so no
      page is opened, and the tax table's total row ends 15 points below the
      margin. */
  lemma {:induction false} TaxOverflowExample(m: Metrics)
    requires m.nameHeight("Panel") == 10.0 && m.addressHeight == 353.89 && !m.buyerGstin
    ensures var r := GenerateInvoicePdf(PanelInvoice, m);
      && |InvoiceTotals.CalculateTotals(PanelInvoice).value.groups| == 1
      && r.Success?
      && r.value.FooterBottom() == Limit(Sheet) - 100.0
      && r.value.Pages() == [Opening]
      && r.value.tax.y + TaxTableExtent(1) == Limit(Sheet) + 15.0
  {
    PanelTotals();
    PanelLayout(m);
  }

  /** The line and the payload of the concrete invoice above. */
  const PanelLine: InvoiceTotals.Item := InvoiceTotals.Item("Panel", "8537", 1.0, 100.0, None, Some(18.0))
  const PanelInvoice: Option<InvoiceTotals.Payload> :=
    Some(InvoiceTotals.Payload(Some(InvoiceTotals.Invoice(Some([PanelLine]), None))))

  /** The concrete invoice keeps its one line and has one tax group. */
  lemma {:induction false} PanelTotals()
    ensures InvoiceTotals.CalculateTotals(PanelInvoice).Success?
    ensures InvoiceTotals.CalculateTotals(PanelInvoice).value.items == [PanelLine]
    ensures |InvoiceTotals.CalculateTotals(PanelInvoice).value.groups| == 1
  {
    var c := InvoiceTotals.CalculateTotals(PanelInvoice).value;
    assert c.items == [PanelLine];
    assert InvoiceTotals.Codes([PanelLine]) == {"8537"} by {
      assert [PanelLine][0].hsn == "8537";
    }
  }

  /** The concrete invoice's layout, one line and one group. */
  lemma {:induction false} PanelLayout(m: Metrics)
    requires m.nameHeight("Panel") == 10.0 && m.addressHeight == 353.89 && !m.buyerGstin
    ensures var l := LayoutInvoice([PanelLine], 1, m, AsWritten);
      && l.FooterBottom() == Limit(Sheet) - 100.0
      && l.Pages() == [Opening]
      && l.tax.y + TaxTableExtent(1) == Limit(Sheet) + 15.0
  {
    var l := LayoutInvoice([PanelLine], 1, m, AsWritten);
    var start := State(TableHeader(l.tableTop), [Opening]);
    assert ItemRows([PanelLine], m) == [Row(18.0, 0.0)];
    assert l.rows == Flow(Sheet, start, [Row(18.0, 0.0)], RowResume(), Continuation);
    assert l.rows.end == State(l.tableTop + 20.0 + 18.0, [Opening]);
    TaxOverflowAsWritten([PanelLine], 1, m);
  }

  /** With the estimate covering the block's drawn extent, the whole block,
      down to the bottom of the amount in words, lies above the bottom margin
      whenever it fits on a fresh tax-analysis page at all. */
  lemma {:induction false} TaxFitsCorrected(items: seq<InvoiceTotals.Item>, groups: nat, m: Metrics, w: real)
    requires 0.0 <= w
    requires TaxExtent(groups, w) <= Limit(Sheet) - (Sheet.top + 55.0)
    ensures var l := LayoutInvoice(items, groups, m, Corrected(w));
      && l.TaxTop() - 15.0 + TaxExtent(groups, w) <= Limit(Sheet)
      && l.tax.y + TaxTableExtent(groups) <= Limit(Sheet)
  {
    TaxPlacement(items, groups, m, Corrected(w));
  }
}

=== FILE: invoice_totals.dfy ===
/** The tax aggregation of the invoice generator (`calculateTotals`):
    payload validation, the default installation line, per-line taxable
    amounts, grouping by HSN/SAC code, the equal CGST/SGST split and the
    document totals. Amounts are exact reals. */
module InvoiceTotals {
  import opened Results
  import opened Sums

  const InstallationName: string := "Installation & Commissioning Charges"
  const DefaultInstallationHsn: string := "998739"
  const DefaultInstallationRate: real := 18.0

  /** One invoice line as the request supplies it; `discount` and `taxRate`
      may be missing. */
  datatype Item = Item(
    name: string,
    hsn: string,
    qty: real,
    unitPrice: real,
    discount: Option<real>,
    taxRate: Option<real>)

  /** The optional installation charge of an invoice. A missing `amount`
      behaves as 0, which the `> 0` guard treats alike. */
  datatype Installation = Installation(amount: real, hsn: Option<string>, taxRate: Option<real>)

  /** `data.invoice`: `items` is `None` when it is not an array. */
  datatype Invoice = Invoice(items: Option<seq<Item>>, installation: Option<Installation>)

  /** `data`: the fields the aggregation reads. */
  datatype Payload = Payload(invoice: Option<Invoice>)

  /** The error thrown for a malformed payload. */
  datatype Error = InvalidInvoiceData

  /** An HSN group while items are being accumulated. */
  datatype Bucket = Bucket(hsn: string, taxableValue: real, taxRate: Option<real>)

  /** An HSN group with its tax split. */
  datatype Group = Group(
    hsn: string,
    taxableValue: real,
    taxRate: Option<real>,
    cgstAmount: real,
    sgstAmount: real,
    totalTax: real)

  /** The `calculated` record, together with the item list the source leaves
      behind in the (mutated) payload. */
  datatype Calculated = Calculated(
    items: seq<Item>,
    installation: Option<Installation>,
    amounts: seq<real>,
    subtotal: real,
    groups: seq<Group>,
    totalCgst: real,
    totalSgst: real,
    totalTax: real,
    grandTotal: real)
  {
    /** The payload as it stands after the call: the installation line, if
        appended, is now one of its items. */
    function Data(): Payload {
      Payload(Some(Invoice(Some(items), installation)))
    }
  }

  // ---------------------------------------------------------------------
  // Installation line

  /** The installation line's HSN: a missing or empty code falls back to the default. */
  function InstallationHsn(inst: Installation): string {
    match inst.hsn
    case Some(h) => if h != "" then h else DefaultInstallationHsn
    case None => DefaultInstallationHsn
  }

  /** The installation line's rate: a missing rate and a rate of 0 both become 18. */
  function InstallationRate(inst: Installation): real {
    match inst.taxRate
    case Some(r) => if r != 0.0 then r else DefaultInstallationRate
    case None => DefaultInstallationRate
  }

  /** The line the installation rule appends: one unit at the installation
      amount with no discount, under the installation name. A given
      non-empty code and a given non-zero rate are kept; a missing or empty
      code becomes 998739 and a missing or zero rate becomes 18. Its taxable
      amount is therefore exactly the installation amount. */
  function InstallationItem(inst: Installation): (it: Item)
    ensures it.name == InstallationName
    ensures it.qty == 1.0 && it.unitPrice == inst.amount && it.discount == Some(0.0)
    ensures inst.hsn.Some? && inst.hsn.value != "" ==> it.hsn == inst.hsn.value
    ensures inst.hsn.None? || inst.hsn == Some("") ==> it.hsn == DefaultInstallationHsn
    ensures inst.taxRate.Some? && inst.taxRate.value != 0.0 ==> it.taxRate == inst.taxRate
    ensures inst.taxRate.None? || inst.taxRate == Some(0.0) ==> it.taxRate == Some(DefaultInstallationRate)
    ensures it.hsn != "" && it.taxRate.Some? && it.taxRate.value != 0.0
    ensures ItemAmount(it) == inst.amount
  {
    Item(InstallationName, InstallationHsn(inst), 1.0, inst.amount, Some(0.0), Some(InstallationRate(inst)))
  }

  predicate HasItemNamed(items: seq<Item>, name: string) {
    exists i :: 0 <= i < |items| && items[i].name == name
  }

  /** Appends the installation line when there is a positive installation
      amount and no line already carries the installation name. */
  function WithInstallation(items: seq<Item>, inst: Option<Installation>): (r: seq<Item>)
    ensures r == items || (inst.Some? && r == items + [InstallationItem(inst.value)])
    ensures r != items <==> inst.Some? && inst.value.amount > 0.0 && !HasItemNamed(items, InstallationName)
    ensures HasItemNamed(r, InstallationName)
        <==> HasItemNamed(items, InstallationName) || (inst.Some? && inst.value.amount > 0.0)
  {
    if inst.Some? && inst.value.amount > 0.0 then
      var line := InstallationItem(inst.value);
      if !HasItemNamed(items, line.name) then
        assert (items + [line])[|items|].name == InstallationName;
        items + [line]
      else
        items
    else
      items
  }

  /** Applying the installation rule to its own output changes nothing, so the
      line is added at most once however often the totals are computed. */
  lemma {:induction false} InstallationAddedAtMostOnce(items: seq<Item>, inst: Option<Installation>)
    ensures WithInstallation(WithInstallation(items, inst), inst) == WithInstallation(items, inst)
    ensures |WithInstallation(items, inst)| <= |items| + 1
  {
    var once := WithInstallation(items, inst);
    if once != items {
      assert once[|items|].name == InstallationName;
      assert HasItemNamed(once, InstallationName);
    }
  }

  // ---------------------------------------------------------------------
  // Line amounts

  function Discount(it: Item): real {
    it.discount.GetOr(0.0)
  }

  /** The taxable amount of one line: quantity times unit price, less the
      discount percentage of that product. */
  function ItemAmount(it: Item): (a: real)
    ensures Discount(it) == 0.0 ==> a == it.qty * it.unitPrice
    ensures Discount(it) == 100.0 ==> a == 0.0
  {
    var itemTotal := it.qty * it.unitPrice;
    var discountAmount := itemTotal * Discount(it) / 100.0;
    itemTotal - discountAmount
  }

  /** With a non-negative quantity and price and a discount between 0 and
      100 percent, a line's amount lies between nothing and its undiscounted
      total. */
  lemma {:induction false} ItemAmountWithin(it: Item)
    requires 0.0 <= it.qty && 0.0 <= it.unitPrice && 0.0 <= Discount(it) <= 100.0
    ensures 0.0 <= ItemAmount(it) <= it.qty * it.unitPrice
  {
    ProductNonNegative(it.qty, it.unitPrice);
    DiscountWithin(it.qty * it.unitPrice, Discount(it));
  }

  lemma {:induction false} ProductNonNegative(x: real, y: real)
    requires 0.0 <= x && 0.0 <= y
    ensures 0.0 <= x * y
  {
  }

  /** A discount percentage between 0 and 100 takes off between nothing and
      the whole total. */
  lemma {:induction false} DiscountWithin(t: real, d: real)
    requires 0.0 <= t && 0.0 <= d <= 100.0
    ensures 0.0 <= t * d / 100.0 <= t
  {
    ProductNonNegative(t, d);
    ProductNonNegative(t, 100.0 - d);
    assert t * d + t * (100.0 - d) == t * 100.0;
  }

  // ---------------------------------------------------------------------
  // Grouping by HSN

  /** Position of the group with code `h`, or `|bs|` when there is none. */
  function FindHsn(bs: seq<Bucket>, h: string): (k: nat)
    ensures k <= |bs|
    ensures k < |bs| ==> bs[k].hsn == h
    ensures forall j :: 0 <= j < k ==> bs[j].hsn != h
  {
    if |bs| == 0 then 0
    else if bs[0].hsn == h then 0
    else 1 + FindHsn(bs[1..], h)
  }

  /** Accumulates one line: opens a group for an unseen code (with this
      line's rate), then adds the line's amount to the group's taxable value. */
  function AddItem(bs: seq<Bucket>, it: Item): seq<Bucket> {
    var k := FindHsn(bs, it.hsn);
    var withGroup := if k < |bs| then bs else bs + [Bucket(it.hsn, 0.0, it.taxRate)];
    withGroup[k := withGroup[k].(taxableValue := withGroup[k].taxableValue + ItemAmount(it))]
  }

  /** The groups after all lines, in first-seen order: one group per
      distinct code, each totalling exactly the lines with its code at the
      rate of the first of them, and no amount lost. */
  function GroupItems(items: seq<Item>): (bs: seq<Bucket>)
    ensures GroupsOf(items, bs)
    decreases |items|
  {
    if |items| == 0 then []
    else
      var n := |items| - 1;
      var pre, it := items[..n], items[n];
      var bs0 := GroupItems(pre);
      assert items == pre + [it];
      if FindHsn(bs0, it.hsn) < |bs0| then
        AddExisting(pre, it, bs0);
        AddItem(bs0, it)
      else
        AddNew(pre, it, bs0);
        AddItem(bs0, it)
  }

  function TaxableOf(b: Bucket): real {
    b.taxableValue
  }

  function Codes(items: seq<Item>): set<string> {
    set i | 0 <= i < |items| :: items[i].hsn
  }

  function Keys(bs: seq<Bucket>): set<string> {
    set k | 0 <= k < |bs| :: bs[k].hsn
  }

  /** Reference definition: the summed amounts of the lines with code `h`. */
  function HsnTotal(items: seq<Item>, h: string): real {
    if |items| == 0 then 0.0
    else HsnTotal(items[..|items| - 1], h)
         + (if items[|items| - 1].hsn == h then ItemAmount(items[|items| - 1]) else 0.0)
  }

  /** Line `i` is the first line with code `h`. */
  predicate FirstWithHsn(items: seq<Item>, i: int, h: string) {
    0 <= i < |items| && items[i].hsn == h && forall j :: 0 <= j < i ==> items[j].hsn != h
  }

  predicate DistinctKeys(bs: seq<Bucket>) {
    forall i, j :: 0 <= i < j < |bs| ==> bs[i].hsn != bs[j].hsn
  }

  /** Every group holds the summed amounts of exactly the lines with its code. */
  ghost predicate GroupTotals(items: seq<Item>, bs: seq<Bucket>) {
    forall k :: 0 <= k < |bs| ==> bs[k].taxableValue == HsnTotal(items, bs[k].hsn)
  }

  /** Every group carries the rate of the first line with its code. */
  ghost predicate FirstRates(items: seq<Item>, bs: seq<Bucket>) {
    forall k, i :: 0 <= k < |bs| && FirstWithHsn(items, i, bs[k].hsn) ==> bs[k].taxRate == items[i].taxRate
  }

  /** What grouping promises about the lines it was given. */
  ghost predicate GroupsOf(items: seq<Item>, bs: seq<Bucket>) {
    && DistinctKeys(bs)
    && Keys(bs) == Codes(items)
    && GroupTotals(items, bs)
    && FirstRates(items, bs)
    && SumOf(bs, TaxableOf) == SumOf(items, ItemAmount)
  }

  lemma {:induction false} HsnTotalAbsent(items: seq<Item>, h: string)
    requires h !in Codes(items)
    ensures HsnTotal(items, h) == 0.0
    decreases |items|
  {
    if |items| > 0 {
      var pre := items[..|items| - 1];
      assert Codes(pre) <= Codes(items) by {
        forall c | c in Codes(pre) ensures c in Codes(items) {
          var i :| 0 <= i < |pre| && pre[i].hsn == c;
          assert items[i].hsn == c;
        }
      }
      assert items[|items| - 1].hsn in Codes(items);
      HsnTotalAbsent(pre, h);
    }
  }

  lemma {:induction false} CodesSnoc(pre: seq<Item>, it: Item)
    ensures Codes(pre + [it]) == Codes(pre) + {it.hsn}
  {
    var items := pre + [it];
    forall c | c in Codes(items) ensures c in Codes(pre) + {it.hsn} {
      var i :| 0 <= i < |items| && items[i].hsn == c;
      if i < |pre| { assert pre[i].hsn == c; }
    }
    forall c | c in Codes(pre) + {it.hsn} ensures c in Codes(items) {
      if c == it.hsn { assert items[|pre|].hsn == c; }
      else {
        var i :| 0 <= i < |pre| && pre[i].hsn == c;
        assert items[i].hsn == c;
      }
    }
  }

  /** A line whose code is already grouped keeps the grouping's promises. */
  lemma {:induction false} AddExisting(pre: seq<Item>, it: Item, bs0: seq<Bucket>)
    requires GroupsOf(pre, bs0)
    requires FindHsn(bs0, it.hsn) < |bs0|
    ensures GroupsOf(pre + [it], AddItem(bs0, it))
  {
    var k := FindHsn(bs0, it.hsn);
    CodesSnoc(pre, it);
    SumOfSnoc(pre, it);
    var b := bs0[k].(taxableValue := bs0[k].taxableValue + ItemAmount(it));
    assert AddItem(bs0, it) == bs0[k := b];
    ExistingKeys(bs0, k, b);
    ExistingTotals(pre, it, bs0, k);
    ExistingRates(pre, it, bs0, k, b);
    SumOfUpdate(bs0, k, b, TaxableOf);
  }

  /** A line with an unseen code opens a group and keeps the grouping's promises. */
  lemma {:induction false} AddNew(pre: seq<Item>, it: Item, bs0: seq<Bucket>)
    requires GroupsOf(pre, bs0)
    requires FindHsn(bs0, it.hsn) >= |bs0|
    ensures GroupsOf(pre + [it], AddItem(bs0, it))
  {
    CodesSnoc(pre, it);
    SumOfSnoc(pre, it);
    var b := Bucket(it.hsn, 0.0 + ItemAmount(it), it.taxRate);
    assert AddItem(bs0, it) == bs0 + [b];
    NewKeys(bs0, b);
    NewTotals(pre, it, bs0);
    NewRates(pre, it, bs0);
    SumOfAppend(bs0, [b], TaxableOf);
  }

  lemma {:induction false} SumOfSnoc(pre: seq<Item>, it: Item)
    ensures SumOf(pre + [it], ItemAmount) == SumOf(pre, ItemAmount) + ItemAmount(it)
  {
    assert (pre + [it])[..|pre|] == pre;
  }

  /** Raising one group's amount keeps the set of codes and their distinctness. */
  lemma {:induction false} ExistingKeys(bs0: seq<Bucket>, k: nat, b: Bucket)
    requires k < |bs0| && b.hsn == bs0[k].hsn
    requires DistinctKeys(bs0)
    ensures Keys(bs0[k := b]) == Keys(bs0)
    ensures DistinctKeys(bs0[k := b])
  {
    var bs := bs0[k := b];
    forall c | c in Keys(bs) ensures c in Keys(bs0) {
      var g :| 0 <= g < |bs| && bs[g].hsn == c;
      assert bs0[g].hsn == c;
    }
    forall c | c in Keys(bs0) ensures c in Keys(bs) {
      var g :| 0 <= g < |bs0| && bs0[g].hsn == c;
      assert bs[g].hsn == c;
    }
  }

  /** A line with an already grouped code raises that group's total and no other. */
  lemma {:induction false} ExistingTotals(pre: seq<Item>, it: Item, bs0: seq<Bucket>, k: nat)
    requires k < |bs0| && bs0[k].hsn == it.hsn
    requires DistinctKeys(bs0)
    requires GroupTotals(pre, bs0)
    ensures GroupTotals(pre + [it], bs0[k := bs0[k].(taxableValue := bs0[k].taxableValue + ItemAmount(it))])
  {
    var items := pre + [it];
    assert items[..|pre|] == pre;
    var bs := bs0[k := bs0[k].(taxableValue := bs0[k].taxableValue + ItemAmount(it))];
    forall g | 0 <= g < |bs| ensures bs[g].taxableValue == HsnTotal(items, bs[g].hsn) {
      assert HsnTotal(items, bs[g].hsn) == HsnTotal(pre, bs[g].hsn)
        + (if it.hsn == bs[g].hsn then ItemAmount(it) else 0.0);
    }
  }

  /** A line with an already grouped code is not the first with that code, so
      no group's rate changes. */
  lemma {:induction false} ExistingRates(pre: seq<Item>, it: Item, bs0: seq<Bucket>, k: nat, b: Bucket)
    requires k < |bs0| && bs0[k].hsn == it.hsn && b.hsn == it.hsn && b.taxRate == bs0[k].taxRate
    requires Keys(bs0) == Codes(pre)
    requires FirstRates(pre, bs0)
    ensures FirstRates(pre + [it], bs0[k := b])
  {
    var items := pre + [it];
    var bs := bs0[k := b];
    assert it.hsn in Keys(bs0);
    forall g, i | 0 <= g < |bs| && FirstWithHsn(items, i, bs[g].hsn)
      ensures bs[g].taxRate == items[i].taxRate
    {
      assert bs[g].hsn == bs0[g].hsn && bs[g].taxRate == bs0[g].taxRate;
      assert bs0[g].hsn in Keys(bs0);
      FirstWithHsnInPrefix(pre, it, i, bs0[g].hsn);
    }
  }

  /** A code already present before the last line is first met before it. */
  lemma {:induction false} FirstWithHsnInPrefix(pre: seq<Item>, it: Item, i: int, h: string)
    requires h in Codes(pre)
    requires FirstWithHsn(pre + [it], i, h)
    ensures FirstWithHsn(pre, i, h)
  {
    var items := pre + [it];
    var i0 :| 0 <= i0 < |pre| && pre[i0].hsn == h;
    assert items[i0] == pre[i0];
    forall j | 0 <= j < i ensures pre[j].hsn != h {
      assert items[j] == pre[j];
    }
    assert items[i] == pre[i];
  }

  /** Opening a group for an unseen code adds exactly that code. */
  lemma {:induction false} NewKeys(bs0: seq<Bucket>, b: Bucket)
    requires DistinctKeys(bs0)
    requires forall j :: 0 <= j < |bs0| ==> bs0[j].hsn != b.hsn
    ensures Keys(bs0 + [b]) == Keys(bs0) + {b.hsn}
    ensures DistinctKeys(bs0 + [b])
  {
    var bs := bs0 + [b];
    forall c | c in Keys(bs) ensures c in Keys(bs0) + {b.hsn} {
      var g :| 0 <= g < |bs| && bs[g].hsn == c;
      if g < |bs0| { assert bs0[g].hsn == c; }
    }
    forall c | c in Keys(bs0) + {b.hsn} ensures c in Keys(bs) {
      if c == b.hsn { assert bs[|bs0|].hsn == c; }
      else {
        var g :| 0 <= g < |bs0| && bs0[g].hsn == c;
        assert bs[g].hsn == c;
      }
    }
  }

  /** A new group's total is the one line's amount; the others are unchanged. */
  lemma {:induction false} NewTotals(pre: seq<Item>, it: Item, bs0: seq<Bucket>)
    requires Keys(bs0) == Codes(pre)
    requires forall j :: 0 <= j < |bs0| ==> bs0[j].hsn != it.hsn
    requires GroupTotals(pre, bs0)
    ensures GroupTotals(pre + [it], bs0 + [Bucket(it.hsn, 0.0 + ItemAmount(it), it.taxRate)])
  {
    var items := pre + [it];
    assert items[..|pre|] == pre;
    var bs := bs0 + [Bucket(it.hsn, 0.0 + ItemAmount(it), it.taxRate)];
    assert it.hsn !in Keys(bs0);
    HsnTotalAbsent(pre, it.hsn);
    forall g | 0 <= g < |bs| ensures bs[g].taxableValue == HsnTotal(items, bs[g].hsn) {
      assert HsnTotal(items, bs[g].hsn) == HsnTotal(pre, bs[g].hsn)
        + (if it.hsn == bs[g].hsn then ItemAmount(it) else 0.0);
    }
  }

  /** A line with an unseen code is the first with it, so the new group takes
      its rate; the other groups keep theirs. */
  lemma {:induction false} NewRates(pre: seq<Item>, it: Item, bs0: seq<Bucket>)
    requires Keys(bs0) == Codes(pre)
    requires forall j :: 0 <= j < |bs0| ==> bs0[j].hsn != it.hsn
    requires FirstRates(pre, bs0)
    ensures FirstRates(pre + [it], bs0 + [Bucket(it.hsn, 0.0 + ItemAmount(it), it.taxRate)])
  {
    var items := pre + [it];
    var n := |pre|;
    var bs := bs0 + [Bucket(it.hsn, 0.0 + ItemAmount(it), it.taxRate)];
    forall g, i | 0 <= g < |bs| && FirstWithHsn(items, i, bs[g].hsn)
      ensures bs[g].taxRate == items[i].taxRate
    {
      if g < |bs0| {
        assert bs0[g].hsn in Keys(bs0);
        FirstWithHsnInPrefix(pre, it, i, bs0[g].hsn);
      } else {
        assert forall j :: 0 <= j < n ==> pre[j].hsn in Codes(pre);
      }
    }
  }

  // ---------------------------------------------------------------------
  // Tax split and totals

  /** The tax of one group, split into equal central and state halves. A
      missing rate counts as 0. */
  function TaxGroup(b: Bucket): Group {
    var taxRate := b.taxRate.GetOr(0.0);
    var groupTax := b.taxableValue * (taxRate / 100.0);
    Group(b.hsn, b.taxableValue, b.taxRate, groupTax / 2.0, groupTax / 2.0, groupTax)
  }

  function TaxGroups(bs: seq<Bucket>): (gs: seq<Group>)
    ensures |gs| == |bs|
    ensures forall k :: 0 <= k < |bs| ==> gs[k] == TaxGroup(bs[k])
  {
    seq(|bs|, k requires 0 <= k < |bs| => TaxGroup(bs[k]))
  }

  function GroupTaxableOf(g: Group): real { g.taxableValue }
  function CgstOf(g: Group): real { g.cgstAmount }
  function SgstOf(g: Group): real { g.sgstAmount }
  function TaxOf(g: Group): real { g.totalTax }

  /** The payload passes the guard: `data`, `data.invoice` and an items array are present. */
  predicate WellShaped(data: Option<Payload>) {
    data.Some? && data.value.invoice.Some? && data.value.invoice.value.items.Some?
  }

  /** One amount per line, and the subtotal is their sum. */
  ghost predicate LineAmounts(c: Calculated) {
    && |c.amounts| == |c.items|
    && (forall i :: 0 <= i < |c.items| ==> c.amounts[i] == ItemAmount(c.items[i]))
    && c.subtotal == SumOf(c.items, ItemAmount)
  }

  /** Exactly one group per distinct code of the lines. */
  ghost predicate GroupCodes(c: Calculated) {
    && (forall i, j :: 0 <= i < j < |c.groups| ==> c.groups[i].hsn != c.groups[j].hsn)
    && (set k | 0 <= k < |c.groups| :: c.groups[k].hsn) == Codes(c.items)
    && |c.groups| == |Codes(c.items)|
  }

  /** Each group totals its lines, takes the first line's rate, and splits
      its tax into equal halves. */
  ghost predicate GroupValues(c: Calculated) {
    && (forall k :: 0 <= k < |c.groups| ==>
          && c.groups[k].taxableValue == HsnTotal(c.items, c.groups[k].hsn)
          && c.groups[k].totalTax == c.groups[k].taxableValue * (c.groups[k].taxRate.GetOr(0.0) / 100.0)
          && c.groups[k].cgstAmount == c.groups[k].sgstAmount == c.groups[k].totalTax / 2.0)
    && (forall k, i :: 0 <= k < |c.groups| && FirstWithHsn(c.items, i, c.groups[k].hsn) ==>
          c.groups[k].taxRate == c.items[i].taxRate)
  }

  /** The document totals: the groups account for the whole subtotal, the
      tax is the groups' tax in two equal halves, and the grand total adds it. */
  ghost predicate DocumentTotals(c: Calculated) {
    && SumOf(c.groups, GroupTaxableOf) == c.subtotal
    && c.totalTax == SumOf(c.groups, TaxOf)
    && c.totalCgst == c.totalSgst == c.totalTax / 2.0
    && c.grandTotal == c.subtotal + c.totalTax
  }

  /** Everything the `calculated` record promises about the lines it was
      computed from. */
  ghost predicate Aggregates(c: Calculated) {
    LineAmounts(c) && GroupCodes(c) && GroupValues(c) && DocumentTotals(c)
  }

  /** The aggregation proper, over an item list that passed the guard. */
  function Aggregate(items: seq<Item>, inst: Option<Installation>): (c: Calculated)
    ensures c.items == items && c.installation == inst
    ensures Aggregates(c)
  {
    var amounts := seq(|items|, i requires 0 <= i < |items| => ItemAmount(items[i]));
    var subtotal := SumOf(items, ItemAmount);
    var buckets := GroupItems(items);
    var groups := TaxGroups(buckets);
    var totalTax := SumOf(groups, TaxOf);
    var c := Calculated(items, inst, amounts, subtotal, groups,
                        SumOf(groups, CgstOf), SumOf(groups, SgstOf), totalTax, subtotal + totalTax);
    GroupFactsHold(c, buckets);
    DocumentTotalsHold(c, buckets);
    c
  }

  /** A record whose groups are the taxed groups of a correct grouping of its
      lines has the promised group codes and values. */
  lemma {:induction false} GroupFactsHold(c: Calculated, bs: seq<Bucket>)
    requires GroupsOf(c.items, bs) && c.groups == TaxGroups(bs)
    ensures GroupCodes(c) && GroupValues(c)
  {
    AggregateGroups(c.items, bs, c.groups);
  }

  /** Summing those groups' taxes, and adding them to the subtotal, gives the
      promised document totals. */
  lemma {:induction false} DocumentTotalsHold(c: Calculated, bs: seq<Bucket>)
    requires GroupsOf(c.items, bs) && c.groups == TaxGroups(bs)
    requires c.subtotal == SumOf(c.items, ItemAmount)
    requires c.totalTax == SumOf(c.groups, TaxOf)
    requires c.totalCgst == SumOf(c.groups, CgstOf) && c.totalSgst == SumOf(c.groups, SgstOf)
    requires c.grandTotal == c.subtotal + c.totalTax
    ensures DocumentTotals(c)
  {
    TotalsSplit(bs, c.groups);
  }

  /** The taxed groups inherit the grouping's codes, totals and rates. */
  lemma {:induction false} AggregateGroups(items: seq<Item>, bs: seq<Bucket>, gs: seq<Group>)
    requires GroupsOf(items, bs)
    requires gs == TaxGroups(bs)
    ensures forall i, j :: 0 <= i < j < |gs| ==> gs[i].hsn != gs[j].hsn
    ensures (set k | 0 <= k < |gs| :: gs[k].hsn) == Codes(items)
    ensures |gs| == |Codes(items)|
    ensures forall k :: 0 <= k < |gs| ==>
      && gs[k].taxableValue == HsnTotal(items, gs[k].hsn)
      && gs[k].totalTax == gs[k].taxableValue * (gs[k].taxRate.GetOr(0.0) / 100.0)
      && gs[k].cgstAmount == gs[k].sgstAmount == gs[k].totalTax / 2.0
    ensures forall k, i :: 0 <= k < |gs| && FirstWithHsn(items, i, gs[k].hsn) ==>
      gs[k].taxRate == items[i].taxRate
  {
    GroupKeysCarry(items, bs, gs);
    GroupValuesCarry(items, bs, gs);
  }

  lemma {:induction false} GroupKeysCarry(items: seq<Item>, bs: seq<Bucket>, gs: seq<Group>)
    requires DistinctKeys(bs) && Keys(bs) == Codes(items)
    requires gs == TaxGroups(bs)
    ensures forall i, j :: 0 <= i < j < |gs| ==> gs[i].hsn != gs[j].hsn
    ensures (set k | 0 <= k < |gs| :: gs[k].hsn) == Codes(items)
    ensures |gs| == |Codes(items)|
  {
    DistinctKeysCount(bs);
    forall i, j | 0 <= i < j < |gs| ensures gs[i].hsn != gs[j].hsn {
      assert gs[i].hsn == bs[i].hsn && gs[j].hsn == bs[j].hsn;
    }
    assert (set k | 0 <= k < |gs| :: gs[k].hsn) == Keys(bs) by {
      forall k | 0 <= k < |gs| ensures gs[k].hsn == bs[k].hsn {
        assert gs[k] == TaxGroup(bs[k]);
      }
    }
  }

  lemma {:induction false} GroupValuesCarry(items: seq<Item>, bs: seq<Bucket>, gs: seq<Group>)
    requires GroupTotals(items, bs) && FirstRates(items, bs)
    requires gs == TaxGroups(bs)
    ensures forall k :: 0 <= k < |gs| ==>
      && gs[k].taxableValue == HsnTotal(items, gs[k].hsn)
      && gs[k].totalTax == gs[k].taxableValue * (gs[k].taxRate.GetOr(0.0) / 100.0)
      && gs[k].cgstAmount == gs[k].sgstAmount == gs[k].totalTax / 2.0
    ensures forall k, i :: 0 <= k < |gs| && FirstWithHsn(items, i, gs[k].hsn) ==>
      gs[k].taxRate == items[i].taxRate
  {
    forall k | 0 <= k < |gs|
      ensures gs[k].taxableValue == HsnTotal(items, gs[k].hsn)
    {
      assert gs[k] == TaxGroup(bs[k]);
    }
    forall k, i | 0 <= k < |gs| && FirstWithHsn(items, i, gs[k].hsn)
      ensures gs[k].taxRate == items[i].taxRate
    {
      assert gs[k] == TaxGroup(bs[k]);
    }
  }

  /** `calculateTotals`: fails on a malformed payload before any aggregation;
      otherwise aggregates the lines, installation line included. */
  function CalculateTotals(data: Option<Payload>): (r: Result<Calculated, Error>)
    ensures r.Failure? <==> !WellShaped(data)
    ensures r.Success? ==>
      && r.value.items == WithInstallation(data.value.invoice.value.items.value,
                                           data.value.invoice.value.installation)
      && r.value.installation == data.value.invoice.value.installation
      && Aggregates(r.value)
  {
    if !WellShaped(data) then
      Failure(InvalidInvoiceData)
    else
      var inv := data.value.invoice.value;
      var items := WithInstallation(inv.items.value, inv.installation);
      Success(Aggregate(items, inv.installation))
  }

  /** Summing the split halves over the groups gives two equal halves of the
      summed tax, and the groups' taxable values carry over unchanged. */
  lemma {:induction false} TotalsSplit(bs: seq<Bucket>, gs: seq<Group>)
    requires gs == TaxGroups(bs)
    ensures SumOf(gs, CgstOf) == SumOf(gs, TaxOf) / 2.0
    ensures SumOf(gs, SgstOf) == SumOf(gs, TaxOf) / 2.0
    ensures SumOf(gs, GroupTaxableOf) == SumOf(bs, TaxableOf)
  {
    SumOfScaled(gs, CgstOf, TaxOf, 0.5);
    SumOfScaled(gs, SgstOf, TaxOf, 0.5);
    SumOfMapped(bs, gs);
  }

  lemma {:induction false} SumOfMapped(bs: seq<Bucket>, gs: seq<Group>)
    requires |gs| == |bs|
    requires forall k :: 0 <= k < |bs| ==> gs[k].taxableValue == bs[k].taxableValue
    ensures SumOf(gs, GroupTaxableOf) == SumOf(bs, TaxableOf)
    decreases |bs|
  {
    if |bs| > 0 {
      var n := |bs| - 1;
      SumOfMapped(bs[..n], gs[..n]);
    }
  }

  /** With distinct codes, there are exactly as many groups as codes. */
  lemma {:induction false} DistinctKeysCount(bs: seq<Bucket>)
    requires DistinctKeys(bs)
    ensures |Keys(bs)| == |bs|
    decreases |bs|
  {
    if |bs| > 0 {
      var n := |bs| - 1;
      var pre := bs[..n];
      DistinctKeysCount(pre);
      assert Keys(bs) == Keys(pre) + {bs[n].hsn} by {
        forall c | c in Keys(bs) ensures c in Keys(pre) + {bs[n].hsn} {
          var g :| 0 <= g < |bs| && bs[g].hsn == c;
          if g < n { assert pre[g].hsn == c; }
        }
        forall c | c in Keys(pre) ensures c in Keys(bs) {
          var g :| 0 <= g < |pre| && pre[g].hsn == c;
          assert bs[g].hsn == c;
        }
        assert bs[n].hsn in Keys(bs);
      }
      assert bs[n].hsn !in Keys(pre);
    }
  }

  /** Running the aggregation again on the payload it leaves behind yields the
      same totals: the installation line is not appended a second time. */
  lemma {:induction false} RecalculationIsStable(data: Option<Payload>)
    requires CalculateTotals(data).Success?
    ensures CalculateTotals(Some(CalculateTotals(data).value.Data())) == CalculateTotals(data)
  {
    var inv := data.value.invoice.value;
    InstallationAddedAtMostOnce(inv.items.value, inv.installation);
  }
}

=== FILE: quotation_layout.dfy ===
/** The cursor arithmetic of the quotation PDF: the input guard, the
    `ensureSpace` break rule, and the space requests made for each item, for
    each term and for the footer. Measured text heights and the cursor
    movement caused by drawing text are inputs; nothing is drawn. */
module QuotationLayout {
  import opened Results
  import opened Cursor

  /** The quotation is A4 with a 25-point margin on every side. */
  const Margin: real := 25.0
  const Sheet: Page := A4(Margin)

  /** The first item row sits this far below the table's heading row. */
  const FirstRowOffset: real := 25.0
  /** The fixed cursor steps of the totals block, from the gap after the last
      item to the gap after "Terms and Conditions:" (10 + 5 + 5 + 5 + 5 + 5 +
      5 + 7 + 5). */
  const SummarySteps: real := 52.0
  /** A term's request is its measured height less this much. */
  const TermTrim: real := 10.0
  /** The footer asks for its two texts plus this much ... */
  const FooterSlack: real := 10.0
  /** ... and is then placed this far above the bottom margin's line. */
  const FooterLift: real := 5.0
  /** The contact line sits this far above the bottom margin's line. */
  const ContactLift: real := 12.0

  /** One quoted item: the fields the table prints. */
  datatype QuoteItem = QuoteItem(name: string, hsn: string, qty: real, unitPrice: real, amount: real)

  /** The request: `items` and `terms` are `None` when they are not arrays. */
  datatype Quotation = Quotation(items: Option<seq<QuoteItem>>, terms: Option<seq<string>>)

  /** The `TypeError` the promise rejects with. */
  datatype Error = ItemsNotAnArray

  /** The measurements the layout depends on. `tableTop` is where the
      table's heading row was drawn (below the logo, the company block and the
      recipient); `nameHeight` and `termHeight` are wrapped text heights (an
      item name at width 259, the numbered term at width 495); `rowText`,
      `summaryText` and `termText` are the cursor movements caused by drawing
      an item's cells, the seven lines of the totals block, and a term. */
  datatype Metrics = Metrics(
    tableTop: real,
    nameHeight: string -> real,
    rowText: QuoteItem -> real,
    summaryText: real,
    termHeight: (nat, string) -> real,
    termText: (nat, string) -> real,
    thankYouHeight: real,
    contactHeight: real)

  /** Where everything went: the item rows, the state after the totals
      block, the terms, the state after the footer's request, the footer's
      top and the contact line. */
  datatype Quote = Quote(
    items: Flowed,
    summaryEnd: State,
    terms: Flowed,
    footer: State,
    footerTop: real,
    contactTop: real)
  {
    function Pages(): seq<Title> { footer.pages }
  }

  /** The request is rejected before any document exists when it is missing
      or its `items` is not an array. */
  predicate Accepted(data: Option<Quotation>) {
    data.Some? && data.value.items.Some?
  }

  /** `ensureSpace(h)`: a new page, with the cursor at the top margin, exactly
      when `h` points do not fit above the bottom margin. */
  function EnsureSpace(s: State, h: real): (r: State)
    ensures s.y + h > Limit(Sheet) <==> r == State(Sheet.top, s.pages + [Plain])
    ensures s.y + h <= Limit(Sheet) <==> r == s
    ensures h <= Limit(Sheet) - Sheet.top ==> r.y + h <= Limit(Sheet)
  {
    BreakBefore(Sheet, s, h, Sheet.top, Plain)
  }

  /** An item asks for its name's height, is drawn, then moves the cursor by
      that same height. */
  function ItemRows(items: seq<QuoteItem>, m: Metrics): seq<Row> {
    seq(|items|, i requires 0 <= i < |items| => Row(m.nameHeight(items[i].name), m.rowText(items[i])))
  }

  /** A term asks for its measured height less 10, is drawn, then moves the
      cursor by that same reduced height. */
  function TermRows(terms: seq<string>, m: Metrics): seq<Row> {
    seq(|terms|, i requires 0 <= i < |terms| => Row(m.termHeight(i, terms[i]) - TermTrim, m.termText(i, terms[i])))
  }

  /** Every space request in the quotation goes through `ensureSpace`. */
  function Requests(s: State, rows: seq<Row>): Flowed {
    Flow(Sheet, s, rows, Sheet.top, Plain)
  }

  /** The quotation after the guard: items from just below the table's
      heading row, the totals block, the terms when they are an array, and
      the footer pinned to the bottom of the page its request left it on. */
  function LayoutQuotation(items: seq<QuoteItem>, terms: Option<seq<string>>, m: Metrics): (q: Quote)
    ensures |q.items.tops| == |items|
    ensures |q.terms.tops| == (if terms.Some? then |terms.value| else 0)
  {
    var itemFlow := Requests(State(m.tableTop + FirstRowOffset, [Opening]), ItemRows(items, m));
    var summaryEnd := State(itemFlow.end.y + SummarySteps + m.summaryText, itemFlow.end.pages);
    var termFlow := Requests(summaryEnd, if terms.Some? then TermRows(terms.value, m) else []);
    var footer := EnsureSpace(termFlow.end, m.thankYouHeight + m.contactHeight + FooterSlack);
    var footerTop := Limit(Sheet) - m.thankYouHeight - m.contactHeight - FooterLift;
    Quote(itemFlow, summaryEnd, termFlow, footer, footerTop, Limit(Sheet) - ContactLift)
  }

  /** `generateQuotationPDF`: the guard, then the layout. */
  function GenerateQuotationPdf(data: Option<Quotation>, m: Metrics): (r: Result<Quote, Error>)
    ensures r.Failure? <==> data.None? || data.value.items.None?
    ensures r.Success? ==> |r.value.items.tops| == |data.value.items.value|
  {
    if !Accepted(data) then Failure(ItemsNotAnArray)
    else Success(LayoutQuotation(data.value.items.value, data.value.terms, m))
  }

  // ---------------------------------------------------------------------
  // Properties

  /** The items: the first request is made 25 points below the table's
      heading row; each item asks for exactly its name's height, is drawn at
      the top margin of a new page when that overflows and where the cursor
      stood otherwise, and the next request is made after the row's text
      movement and that same height. */
  lemma {:induction false} ItemRequests(items: seq<QuoteItem>, terms: Option<seq<string>>, m: Metrics)
    ensures var q := LayoutQuotation(items, terms, m);
      var r := q.items;
      && (|items| > 0 ==> r.at[0] == m.tableTop + 25.0)
      && (forall i :: 0 <= i < |items| ==>
            r.tops[i] == (if r.at[i] + m.nameHeight(items[i].name) > Limit(Sheet) then Sheet.top else r.at[i]))
      && (forall i :: 0 <= i < |items| - 1 ==>
            r.at[i + 1] == r.tops[i] + m.rowText(items[i]) + m.nameHeight(items[i].name))
  {
    FlowSteps(Sheet, State(m.tableTop + FirstRowOffset, [Opening]), ItemRows(items, m), Sheet.top, Plain);
  }

  /** The terms: each asks for its measured height less 10, is drawn at the
      top margin of a new page when that overflows, and the cursor then moves
      by the term's text and that same reduced height; a `terms` that is not
      an array asks for nothing. */
  lemma {:induction false} TermRequests(items: seq<QuoteItem>, terms: Option<seq<string>>, m: Metrics)
    ensures var q := LayoutQuotation(items, terms, m);
      var r := q.terms;
      && (terms.None? ==> r.end == q.summaryEnd)
      && (terms.Some? ==>
            var ts := terms.value;
            && (|ts| > 0 ==> r.at[0] == q.summaryEnd.y)
            && (forall i :: 0 <= i < |ts| ==>
                  r.tops[i] == (if r.at[i] + (m.termHeight(i, ts[i]) - 10.0) > Limit(Sheet)
                                then Sheet.top else r.at[i]))
            && (forall i :: 0 <= i < |ts| - 1 ==>
                  r.at[i + 1] == r.tops[i] + m.termText(i, ts[i]) + (m.termHeight(i, ts[i]) - 10.0)))
  {
    var q := LayoutQuotation(items, terms, m);
    var rows := if terms.Some? then TermRows(terms.value, m) else [];
    FlowSteps(Sheet, q.summaryEnd, rows, Sheet.top, Plain);
    FlowPages(Sheet, q.summaryEnd, rows, Sheet.top, Plain);
  }

  /** The totals block moves the cursor by its fixed steps and its text, on
      the page the last item left it on. */
  lemma {:induction false} SummaryAdvance(items: seq<QuoteItem>, terms: Option<seq<string>>, m: Metrics)
    ensures var q := LayoutQuotation(items, terms, m);
      && q.summaryEnd.y == q.items.end.y + 52.0 + m.summaryText
      && q.summaryEnd.pages == q.items.end.pages
      && q.items.end.y == (if |items| == 0 then m.tableTop + 25.0
                           else q.items.tops[|items| - 1] + m.rowText(items[|items| - 1])
                                + m.nameHeight(items[|items| - 1].name))
  {
    FlowSteps(Sheet, State(m.tableTop + FirstRowOffset, [Opening]), ItemRows(items, m), Sheet.top, Plain);
  }

  /** An item or term no taller than the page's space between its margins is
      drawn wholly above the bottom margin. */
  lemma {:induction false} RequestsFit(items: seq<QuoteItem>, terms: Option<seq<string>>, m: Metrics)
    requires forall i :: 0 <= i < |items| ==> m.nameHeight(items[i].name) <= Usable(Sheet)
    requires terms.Some? ==> forall i :: 0 <= i < |terms.value| ==>
      m.termHeight(i, terms.value[i]) - 10.0 <= Usable(Sheet)
    ensures var q := LayoutQuotation(items, terms, m);
      && (forall i :: 0 <= i < |items| ==> q.items.tops[i] + m.nameHeight(items[i].name) <= Limit(Sheet))
      && (terms.Some? ==> forall i :: 0 <= i < |terms.value| ==>
            q.terms.tops[i] + (m.termHeight(i, terms.value[i]) - 10.0) <= Limit(Sheet))
  {
    var q := LayoutQuotation(items, terms, m);
    FlowFits(Sheet, State(m.tableTop + FirstRowOffset, [Opening]), ItemRows(items, m), Sheet.top, Plain);
    if terms.Some? {
      FlowFits(Sheet, q.summaryEnd, TermRows(terms.value, m), Sheet.top, Plain);
    }
  }

  /** The footer: it asks for both texts plus 10, opens a page exactly when
      that overflows, and is then pinned 5 points above its texts' bottom
      whatever the cursor was; the contact line always sits 12 points above
      the bottom margin's line. When the footer fits on a page at all, it
      starts at least 5 points below where the request left the cursor, so
      it never overlaps what was drawn before it. */
  lemma {:induction false} FooterPinned(items: seq<QuoteItem>, terms: Option<seq<string>>, m: Metrics)
    ensures var q := LayoutQuotation(items, terms, m);
      var need := m.thankYouHeight + m.contactHeight + 10.0;
      && (q.terms.end.y + need > Limit(Sheet) <==> q.Pages() == q.terms.end.pages + [Plain])
      && q.footerTop + m.thankYouHeight + m.contactHeight + 5.0 == Limit(Sheet)
      && q.contactTop == Limit(Sheet) - 12.0
      && (need <= Usable(Sheet) ==> q.footerTop >= q.footer.y + 5.0)
  {
  }

  /** The pages of a quotation: the first page, then one untitled page for
      each item and each term whose request overflowed, and one when the
      footer's request did; so at most one per item, one per term and one
      for the footer. */
  lemma {:induction false} QuotationPages(items: seq<QuoteItem>, terms: Option<seq<string>>, m: Metrics)
    ensures var q := LayoutQuotation(items, terms, m);
      var ps := q.Pages();
      var n := |items| + (if terms.Some? then |terms.value| else 0);
      && |ps| == 1 + Overflowing(Sheet, q.items.at, ItemRows(items, m))
                 + Overflowing(Sheet, q.terms.at, if terms.Some? then TermRows(terms.value, m) else [])
                 + (if q.terms.end.y + m.thankYouHeight + m.contactHeight + FooterSlack > Limit(Sheet) then 1 else 0)
      && 1 <= |ps| <= 1 + n + 1
      && ps[0] == Opening
      && (forall j :: 1 <= j < |ps| ==> ps[j] == Plain)
  {
    var q := LayoutQuotation(items, terms, m);
    PageCount(q, items, terms, m);
    PageTitles(q, items, terms, m);
  }

  /** The titles of a quotation's pages, and their bounds. */
  lemma {:induction false} PageTitles(q: Quote, items: seq<QuoteItem>, terms: Option<seq<string>>, m: Metrics)
    requires q == LayoutQuotation(items, terms, m)
    ensures var ps := q.Pages();
      var n := |items| + (if terms.Some? then |terms.value| else 0);
      && 1 <= |ps| <= 1 + n + 1
      && ps[0] == Opening
      && (forall j :: 1 <= j < |ps| ==> ps[j] == Plain)
  {
    var s0 := State(m.tableTop + FirstRowOffset, [Opening]);
    var rows := if terms.Some? then TermRows(terms.value, m) else [];
    FlowPages(Sheet, s0, ItemRows(items, m), Sheet.top, Plain);
    FlowPages(Sheet, q.summaryEnd, rows, Sheet.top, Plain);
    var a := q.items.end.pages;
    var b := q.terms.end.pages;
    var c := q.Pages();
    assert a[..1] == [Opening];
    assert b[..|a|] == a && c[..|b|] == b;
    forall j | 1 <= j < |c| ensures c[j] == Plain {
      if j < |b| {
        assert c[j] == b[j];
        if j < |a| {
          assert b[j] == a[j];
        }
      }
    }
    assert c[0] == c[..|b|][0] == b[..|a|][0] == a[0];
  }

  /** The page count of a quotation, from the page counts of its flows. */
  lemma {:induction false} PageCount(q: Quote, items: seq<QuoteItem>, terms: Option<seq<string>>, m: Metrics)
    requires q == LayoutQuotation(items, terms, m)
    ensures |q.Pages()| == 1 + Overflowing(Sheet, q.items.at, ItemRows(items, m))
      + Overflowing(Sheet, q.terms.at, if terms.Some? then TermRows(terms.value, m) else [])
      + (if q.terms.end.y + m.thankYouHeight + m.contactHeight + FooterSlack > Limit(Sheet) then 1 else 0)
  {
    var rows := if terms.Some? then TermRows(terms.value, m) else [];
    FlowPages(Sheet, State(m.tableTop + FirstRowOffset, [Opening]), ItemRows(items, m), Sheet.top, Plain);
    FlowPages(Sheet, q.summaryEnd, rows, Sheet.top, Plain);
    assert |q.summaryEnd.pages| == |q.items.end.pages|;
  }
}

=== FILE: results.dfy ===
/** Optional values and success/failure results, used for JavaScript's
    missing fields (`undefined`, `null`) and for thrown errors / rejected promises. */
module Results {

  /** A value that may be absent (`undefined` or `null` in the source). */
  datatype Option<+T> = None | Some(value: T) {

    /** The value, or `default` when absent. */
    function GetOr(default: T): T {
      match this
      case Some(v) => v
      case None => default
    }
  }

  /** The outcome of an operation that may throw or reject. */
  datatype Result<+R, +E> = Success(value: R) | Failure(error: E)
}

=== FILE: sums.dfy ===
/** Exact sums of reals over sequences, accumulated left to right as the
    source's `forEach` / `for ... in` loops do. */
module Sums {

  /** Sum of `f` over the elements of `s`, first element first. */
  function SumOf<T>(s: seq<T>, f: T -> real): real
  {
    if |s| == 0 then 0.0 else SumOf(s[..|s| - 1], f) + f(s[|s| - 1])
  }

  /** Sum of a sequence of reals. */
  function Sum(s: seq<real>): real
  {
    if |s| == 0 then 0.0 else Sum(s[..|s| - 1]) + s[|s| - 1]
  }

  lemma {:induction false} SumOfAppend<T>(a: seq<T>, b: seq<T>, f: T -> real)
    ensures SumOf(a + b, f) == SumOf(a, f) + SumOf(b, f)
    decreases |b|
  {
    if |b| > 0 {
      var b' := b[..|b| - 1];
      assert (a + b)[..|a + b| - 1] == a + b';
      SumOfAppend(a, b', f);
    } else {
      assert a + b == a;
    }
  }

  /** Replacing one element by one whose `f` is larger by `d` raises the sum by `d`. */
  lemma {:induction false} SumOfUpdate<T>(s: seq<T>, k: nat, x: T, f: T -> real)
    requires k < |s|
    ensures SumOf(s[k := x], f) == SumOf(s, f) + (f(x) - f(s[k]))
    decreases |s|
  {
    var n := |s| - 1;
    if k == n {
      assert s[k := x][..n] == s[..n];
    } else {
      assert s[k := x][..n] == s[..n][k := x];
      SumOfUpdate(s[..n], k, x, f);
    }
  }

  /** When `f` is everywhere `c` times `g`, the sums are in the same ratio. */
  lemma {:induction false} SumOfScaled<T>(s: seq<T>, f: T -> real, g: T -> real, c: real)
    requires forall i :: 0 <= i < |s| ==> f(s[i]) == c * g(s[i])
    ensures SumOf(s, f) == c * SumOf(s, g)
    decreases |s|
  {
    if |s| > 0 {
      var n := |s| - 1;
      assert forall i :: 0 <= i < n ==> s[..n][i] == s[i];
      SumOfScaled(s[..n], f, g, c);
    }
  }
}

=== FILE: whitespace.dfy ===
/** The string clean-up at the end of the amount-in-words conversion: the
    regular-expression replacement of every whitespace run by one space
    (`replace(/\s+/g, " ")`), JavaScript's `trim()`, and the space-separated
    word layouts the conversion produces. */
module Whitespace {

  /** JavaScript's `\s` and the characters `trim()` removes: the ECMAScript
      WhiteSpace and LineTerminator code points. */
  predicate IsSpace(c: char) {
    || c == ' ' || c == '\t' || c == '\n' || c == '\U{B}' || c == '\U{C}' || c == '\r'
    || c == '\U{A0}' || c == '\U{1680}' || ('\U{2000}' <= c <= '\U{200A}')
    || c == '\U{2028}' || c == '\U{2029}' || c == '\U{202F}' || c == '\U{205F}'
    || c == '\U{3000}' || c == '\U{FEFF}'
  }

  /** `s` contains no whitespace at all. */
  predicate Solid(s: string) {
    forall i :: 0 <= i < |s| ==> !IsSpace(s[i])
  }

  /** Drops the leading whitespace run; this is also `trimStart`. */
  function SkipSpaces(s: string): (r: string)
    ensures |r| <= |s| && r == s[|s| - |r|..]
    ensures r == [] || !IsSpace(r[0])
    ensures forall i :: 0 <= i < |s| - |r| ==> IsSpace(s[i])
  {
    if |s| == 0 || !IsSpace(s[0]) then s else SkipSpaces(s[1..])
  }

  /** `replace(/\s+/g, " ")`: every maximal whitespace run becomes one space.
      The result is no longer than the input, empty only for the empty
      input, and starts with whitespace exactly when the input does.
      `CollapseSpaces` shows that its only whitespace is plain spaces, never
      two in a row; `CollapseSolid` that it leaves whitespace-free text alone. */
  function Collapse(s: string): (r: string)
    ensures |r| <= |s|
    ensures |r| > 0 <==> |s| > 0
    ensures |s| > 0 ==> (IsSpace(r[0]) <==> IsSpace(s[0]))
    decreases |s|
  {
    if |s| == 0 then ""
    else if IsSpace(s[0]) then " " + Collapse(SkipSpaces(s[1..]))
    else [s[0]] + Collapse(s[1..])
  }

  /** Drops the trailing whitespace run. */
  function TrimEnd(s: string): (r: string)
    ensures |r| <= |s| && r == s[..|r|]
    ensures r == [] || !IsSpace(r[|r| - 1])
    ensures forall i :: |r| <= i < |s| ==> IsSpace(s[i])
  {
    if |s| == 0 || !IsSpace(s[|s| - 1]) then s else TrimEnd(s[..|s| - 1])
  }

  /** The length of the leading whitespace run. */
  function LeadingSpaces(s: string): (k: nat)
    ensures k <= |s|
    ensures forall i :: 0 <= i < k ==> IsSpace(s[i])
    ensures k == |s| || !IsSpace(s[k])
  {
    |s| - |SkipSpaces(s)|
  }

  /** `trim()`: the input after its leading whitespace run, cut before its
      trailing whitespace run; empty exactly when the input is all
      whitespace, and the input itself when that neither starts nor ends
      with whitespace. */
  function Trim(s: string): (r: string)
    ensures LeadingSpaces(s) + |r| <= |s|
    ensures r == s[LeadingSpaces(s)..LeadingSpaces(s) + |r|]
    ensures forall i :: LeadingSpaces(s) + |r| <= i < |s| ==> IsSpace(s[i])
    ensures r == [] || (!IsSpace(r[0]) && !IsSpace(r[|r| - 1]))
    ensures r == [] <==> forall i :: 0 <= i < |s| ==> IsSpace(s[i])
    ensures |s| == 0 || (!IsSpace(s[0]) && !IsSpace(s[|s| - 1])) ==> r == s
  {
    TrimEnd(SkipSpaces(s))
  }

  /** Every word followed by one space, as the conversion appends its pieces. */
  function Spaced(ws: seq<string>): string {
    if |ws| == 0 then "" else ws[0] + " " + Spaced(ws[1..])
  }

  /** The words separated by single spaces. */
  function Join(ws: seq<string>): string {
    if |ws| == 0 then ""
    else if |ws| == 1 then ws[0]
    else ws[0] + " " + Join(ws[1..])
  }

  /** The non-empty words, in order. */
  function Visible(ws: seq<string>): (vs: seq<string>)
    ensures |vs| <= |ws|
    ensures forall i :: 0 <= i < |vs| ==> vs[i] != ""
  {
    if |ws| == 0 then []
    else if ws[0] == "" then Visible(ws[1..])
    else [ws[0]] + Visible(ws[1..])
  }

  /** Every word is free of whitespace. */
  predicate AllSolid(ws: seq<string>) {
    forall i :: 0 <= i < |ws| ==> Solid(ws[i])
  }

  /** Every whitespace run survives the replacement as one plain space: the
      result's only whitespace is `' '`, and no two whitespace characters
      are adjacent in it. */
  lemma {:induction false} CollapseSpaces(s: string)
    ensures forall i :: 0 <= i < |Collapse(s)| && IsSpace(Collapse(s)[i]) ==> Collapse(s)[i] == ' '
    ensures forall i :: 0 <= i < |Collapse(s)| - 1 ==> !(IsSpace(Collapse(s)[i]) && IsSpace(Collapse(s)[i + 1]))
    decreases |s|
  {
    if |s| > 0 {
      if IsSpace(s[0]) {
        CollapseSpaces(SkipSpaces(s[1..]));
      } else {
        CollapseSpaces(s[1..]);
      }
    }
  }

  /** A whitespace-free prefix passes through the replacement unchanged. */
  lemma {:induction false} CollapseSolid(w: string, rest: string)
    requires Solid(w)
    ensures Collapse(w + rest) == w + Collapse(rest)
    decreases |w|
  {
    if |w| > 0 {
      var t := w + rest;
      assert t[0] == w[0] && !IsSpace(t[0]);
      assert t[1..] == w[1..] + rest;
      assert Solid(w[1..]) by {
        forall i | 0 <= i < |w[1..]| ensures !IsSpace(w[1..][i]) {
          assert w[1..][i] == w[i + 1];
        }
      }
      CollapseSolid(w[1..], rest);
      calc {
        Collapse(t);
        [t[0]] + Collapse(t[1..]);
        [w[0]] + (w[1..] + Collapse(rest));
        { assert w == [w[0]] + w[1..]; }
        w + Collapse(rest);
      }
    } else {
      assert w + rest == rest;
    }
  }

  /** Leading empty words contribute only whitespace. */
  function DropEmpty(ws: seq<string>): (r: seq<string>)
    ensures |r| <= |ws|
    ensures |r| == 0 || r[0] != ""
    ensures Visible(r) == Visible(ws)
    ensures AllSolid(ws) ==> AllSolid(r)
  {
    if |ws| == 0 || ws[0] != "" then ws else DropEmpty(ws[1..])
  }

  lemma {:induction false} SolidTail(ws: seq<string>)
    requires |ws| > 0 && AllSolid(ws)
    ensures Solid(ws[0]) && AllSolid(ws[1..])
  {
    forall i | 0 <= i < |ws[1..]| ensures Solid(ws[1..][i]) {
      assert ws[1..][i] == ws[i + 1];
    }
  }

  lemma {:induction false} SkipSpacesSpaced(ws: seq<string>)
    requires AllSolid(ws)
    ensures SkipSpaces(Spaced(ws)) == Spaced(DropEmpty(ws))
    decreases |ws|
  {
    if |ws| > 0 {
      SolidTail(ws);
      if ws[0] == "" {
        var x := Spaced(ws[1..]);
        assert Spaced(ws) == " " + x;
        assert (" " + x)[1..] == x;
        SkipSpacesSpaced(ws[1..]);
      } else {
        assert Spaced(ws)[0] == ws[0][0];
      }
    }
  }

  /** Collapsing the spaced layout of whitespace-free words, the first of them
      non-empty, drops the empty words and their doubled spaces. */
  lemma {:induction false} CollapseSpaced(ws: seq<string>)
    requires AllSolid(ws)
    requires |ws| == 0 || ws[0] != ""
    ensures Collapse(Spaced(ws)) == Spaced(Visible(ws))
    decreases |ws|
  {
    if |ws| > 0 {
      var w, rest := ws[0], ws[1..];
      SolidTail(ws);
      var rest' := DropEmpty(rest);
      calc {
        Collapse(Spaced(ws));
        { assert Spaced(ws) == w + (" " + Spaced(rest)); }
        Collapse(w + (" " + Spaced(rest)));
        { CollapseSolid(w, " " + Spaced(rest)); }
        w + Collapse(" " + Spaced(rest));
        { CollapseAfterSpace(Spaced(rest)); }
        w + (" " + Collapse(SkipSpaces(Spaced(rest))));
        { SkipSpacesSpaced(rest); }
        w + (" " + Collapse(Spaced(rest')));
        { CollapseSpaced(rest'); }
        w + (" " + Spaced(Visible(rest)));
        { assert ([w] + Visible(rest))[1..] == Visible(rest); }
        Spaced([w] + Visible(rest));
      }
    }
  }

  lemma {:induction false} CollapseAfterSpace(x: string)
    ensures Collapse(" " + x) == " " + Collapse(SkipSpaces(x))
  {
    assert (" " + x)[1..] == x;
  }

  lemma {:induction false} SpacedIsJoinPlusSpace(vs: seq<string>)
    requires |vs| > 0
    ensures Spaced(vs) == Join(vs) + " "
    decreases |vs|
  {
    if |vs| > 1 {
      SpacedIsJoinPlusSpace(vs[1..]);
    } else {
      assert vs[1..] == [];
    }
  }

  lemma {:induction false} JoinEnds(vs: seq<string>)
    requires |vs| > 0 && AllSolid(vs)
    requires forall i :: 0 <= i < |vs| ==> vs[i] != ""
    ensures |Join(vs)| > 0
    ensures Join(vs)[0] == vs[0][0] && !IsSpace(Join(vs)[|Join(vs)| - 1])
    decreases |vs|
  {
    SolidTail(vs);
    if |vs| > 1 {
      JoinEnds(vs[1..]);
    }
  }

  /** Trimming the collapsed spaced layout leaves exactly the non-empty words
      separated by single spaces, with nothing before or after them. */
  lemma {:induction false} TrimCollapseSpaced(ws: seq<string>)
    requires AllSolid(ws)
    requires |ws| > 0 && ws[0] != ""
    ensures Trim(Collapse(Spaced(ws))) == Join(Visible(ws))
  {
    CollapseSpaced(ws);
    var vs := Visible(ws);
    assert vs == [ws[0]] + Visible(ws[1..]);
    assert AllSolid(vs) by {
      VisibleSolid(ws);
    }
    SpacedIsJoinPlusSpace(vs);
    JoinEnds(vs);
    var j := Join(vs);
    assert Solid(ws[0]);
    assert SkipSpaces(j + " ") == j + " ";
    assert (j + " ")[..|j|] == j;
  }

  lemma {:induction false} VisibleSolid(ws: seq<string>)
    requires AllSolid(ws)
    ensures AllSolid(Visible(ws))
    decreases |ws|
  {
    if |ws| > 0 {
      SolidTail(ws);
      VisibleSolid(ws[1..]);
    }
  }

  lemma {:induction false} JoinVisibleTwo(a: string, b: string)
    requires a != "" && b != ""
    ensures Join(Visible([a, b])) == a + " " + b
  {
    assert [a, b][1..] == [b] && [b][1..] == [];
    assert Visible([a, b]) == [a, b];
  }
}
